=== FILE: README.md ===
# Text-to-speech document pipeline: a Dafny model

The repository turns Word documents into speech. The text is split into
sentences, and the sentences are packed greedily into chunks that stay within
a character budget and a GPT-2 token budget. Each chunk is synthesised into
a segment file `output_<idx>.wav`. The segments are then merged into one
output file.

The later scripts can resume an interrupted run. Each finished chunk's key is
saved in a comma-separated progress file, and chunks whose key is recorded
are skipped on the next run. Three versions of the pipeline exist:

- `tts_v2.py` resumes, with keys `str(idx)`. It merges the paths this run
  returned.
- `oldanddiff/tts_v5_thread-broken.py` resumes, with keys `output_<idx>.wav`,
  and works on one document at a time (`process_document`). It merges every
  `.wav` file of the document's working directory, then removes the working
  directory and the progress file.
- `oldanddiff/tts.py` does not resume. It tries every chunk.

`wav.py` is a separate script. It merges the `.wav` files of a folder,
sorted, into `End.wav` in the same folder.

The model is pure and functional. Anything outside the pipeline is a
parameter:

- the sentence tokenizer's output, as a sequence of sentences;
- the sub-word token counter, `tok`;
- whether synthesis of chunk `idx` succeeds, `ok(idx)` or `synth(idx)`;
- what reading an audio file yields, `load`, which is `None` when
  `AudioSegment.from_wav` raises (in `Document`, an audio file either
  decodes or is `Damaged`, for example a segment cut short when a run was
  killed);
- whether an export succeeds, `exportOk`;
- the order in which `os.listdir` lists a directory.

Audio is a sequence of samples of any type `A`, and appending audio is
sequence concatenation. Files are modelled as maps from path to content.

Modules, one per file:

- `Wrappers`: `Option`.
- `Strings`: the Python string operations used, which are `strip`, `split`,
  `join`, `str(int)`, `endswith`, `rfind` and string comparison.
- `Paths`: `os.path.join`, segment names, and the per-document names.
- `Progress`: `load_progress` and `save_progress`.
- `Chunker`: `split_text_by_sentences`.
- `Driver`: `generate_speech`, both the resuming and the non-resuming one.
- `Sorting`: list sorting under two orders.
- `Merge`: `merge_audio_files` and `wav.py`.
- `Document`: `process_document` over a model of the disk.

The chunker is defined twice. `Chunker.Groups` is a fold over sentence
groups. `Chunker.SplitTextBySentences` is the string loop of the source. The
two are proved to agree. The fold is also proved to be the unique greedy
packing of the sentences (`Chunker.ValidPacking`).

The character test at tts_v2.py:61 measures the buffer with its trailing
space: `len(current_chunk)` already counts the space after the last
sentence, while the token test adds only the sentence's own tokens and
counts no joining space. So the sentences "A.", "B.", "C." with a
five-character budget give the chunks "A. B." and "C." (`len("A. ") +
len("B.") == 5`). See `Chunker.SmallBudgetExample`.

## Model

| member | source | states |
|---|---|---|
| Chunker.SplitTextBySentences | tts_v2.py:52-74 | The loop's chunks are the stripped texts of the greedy sentence groups. For well-formed sentences (non-empty, no edge whitespace), each chunk is its group joined by single spaces. |
| Chunker.GroupsArePacking | tts_v2.py:56-72 | The groups partition the sentences in order. Each group is non-empty and fits both budgets (or is a single sentence). No group could have taken the first sentence of the next group. No sentences give no chunks. |
| Chunker.ChunkTextsAreJoins | tts_v2.py:63-72 | For well-formed sentences, `current_chunk.strip()` is exactly the group's sentences joined by one space. |
| Chunker.PackingUnique | tts_v2.py:61-69 | Two greedy packings of the same sentences under the same budget are equal, so the chunker's output is determined by the packing rule alone. |
| Chunker.FirstGroupMaximal | tts_v2.py:61-64 | A greedy packing's first chunk is as long as any other greedy packing's first chunk. |
| Chunker.GroupsWithinBudget | tts_v2.py:61-69 | Every chunk is within both budgets, or is a single sentence that alone breaks one. An oversized sentence is never packed with another. |
| Chunker.SmallBudgetExample | tts_v2.py:61-63 | Three two-character sentences with a five-character budget give `["A.","B."]` then `["C."]`: the buffer's trailing space counts, the joining space of the token test does not. |
| Chunker.DefaultBudgetExample | tts_v2.py:43 | With the default budgets (200 characters, 300 tokens) the same three sentences form one chunk. |
| Strings.Strip | tts_v2.py:34 | `str.strip()` is a contiguous piece of the text, everything outside it is whitespace, and it has no whitespace at either end; text without edge whitespace is unchanged. |
| Strings.StripUnique | tts_v2.py:34 | Any piece of the text that has no edge whitespace and only whitespace outside it is the stripped text: the contract of `Strip` determines it. |
| Strings.UniversalNewlines | tts_v2.py:33 | Reading in text mode leaves no carriage return and never lengthens the text. |
| Strings.UniversalNewlinesTranslates | tts_v2.py:33 | Text-mode reading turns `"\r\n"` into one `'\n'` and a lone `'\r'` into `'\n'`, and keeps every other character. |
| Strings.NoCarriageReturnReadsBack | tts_v2.py:33-41 | A text without carriage returns reads back unchanged in text mode. |
| Strings.SplitJoin | tts_v2.py:34-41 | Splitting a comma-join of comma-free parts on the comma gives back the parts. |
| Strings.NatToString | tts_v2.py:80 | `str(idx)` is a non-empty run of decimal digits with no leading zero, one digit exactly below ten. |
| Strings.NatToStringInjective | tts_v2.py:80 | Distinct chunk indices have distinct decimal keys. |
| Progress.LoadKeys | tts_v2.py:30-36 | A missing file gives no keys. An existing file, read with universal newlines, always gives at least one key. No key contains a comma. |
| Progress.Load | tts_v2.py:30-36 | `load_progress` is empty exactly when the file is missing, and no loaded key contains a comma. |
| Progress.Save | tts_v2.py:38-41 | Splitting the written text at its commas gives back a non-empty list of comma-free keys. |
| Progress.LoadAfterSave | tts_v2.py:30-41 | Saving a non-empty list of storable keys (no comma, no carriage return, no edge whitespace) and loading the file gives back exactly that list, and so that set of keys, whatever the write order. |
| Progress.EmptySaveLoadsEmptyKey | tts_v2.py:32-41 | Saving no keys writes an empty file, which loads as the set holding the empty string, not the empty set. |
| Progress.SaveTo | oldanddiff/tts_v5_thread-broken.py:36-39 | After `save_progress`, the file at the progress path loads as the saved keys, and every other path loads as before. |
| Paths.JoinPath | tts_v2.py:83 | `os.path.join(dir, name)` ends with the name. |
| Paths.JoinPathShape | tts_v2.py:83 | The joined path is the directory, then a separator unless the directory is empty or already ends with one, then the name. |
| Paths.SegmentPathInjective | tts_v2.py:83 | Distinct chunks have distinct segment paths in one directory. |
| Paths.BaseName | oldanddiff/tts_v5_thread-broken.py:138 | `os.path.basename`: the longest end of the path with no separator, which is the whole path or follows a separator. |
| Paths.BaseNameOfJoin | oldanddiff/tts_v5_thread-broken.py:138 | The base name of a directory joined with a plain file name is that file name. |
| Paths.DocumentBaseInDirectory | oldanddiff/tts_v5_thread-broken.py:138 | A document's base name is the stem of its file name, whatever directory holds it. |
| Paths.Stem | oldanddiff/tts_v5_thread-broken.py:138 | `os.path.splitext(name)[0]`: a prefix of the name; when shorter, it ends just before the last dot and has a character other than a dot; otherwise no dot follows a non-dot character. |
| Paths.DocumentBase | oldanddiff/tts_v5_thread-broken.py:138 | The base name of a document path holds no path separator. |
| Paths.DocumentBaseOfName | oldanddiff/tts_v5_thread-broken.py:138 | For a plain file name `stem.ext`, the base name is `stem`. |
| Paths.DocumentPathsDistinct | oldanddiff/tts_v5_thread-broken.py:138-140 | A document's working directory, progress file and output are three different names, and each is different for different base names. |
| Paths.CrossDocumentCollision | oldanddiff/tts_v5_thread-broken.py:138-157 | Different documents can still collide: for every plain name `s` not starting with a dot, the working directory of `s.wav.docx` and the output file of `temp_audio_s.docx` are both `temp_audio_s.wav`. |
| Driver.ChunkKeyInjective | oldanddiff/tts_v5_thread-broken.py:77-80 | Distinct chunks have distinct progress keys, in both key styles. |
| Driver.ChunkKeyStorable | tts_v2.py:97-98 | Every chunk key, in both styles, survives a save and a load of the progress file. |
| Driver.GenerateSpeech | tts_v2.py:76-103 | A run never returns more paths than chunks it tried; its full outcome is `Driver.GenerateSpeechOutcome`. |
| Driver.ResumeFromOutcome | tts_v2.py:78-101 | The loop invariant carries the state from any chunk onward to the final outcome. |
| Driver.GenerateSpeechOutcome | tts_v2.py:76-103 | The run tries, in ascending order, exactly the chunks whose key was not recorded and that no failed chunk precedes. It returns only this run's successful segment paths, in order. At most the last chunk tried failed. It records exactly the successes' keys after the starting keys. The progress file is left as it was, or holds the final keys. |
| Driver.SavedProgressMatchesCompleted | tts_v2.py:95-98 | After any run, the progress file (if any) loads as exactly the set of recorded keys. |
| Driver.RecordedKeysStorable | tts_v2.py:80-98 | The keys a run records survive a save and a load when the keys it started from do. |
| Driver.SavedKeysReload | oldanddiff/tts_v5_thread-broken.py:28-39 | A run started from the keys loaded from the progress file leaves a file that loads as exactly the keys it recorded, in order. |
| Driver.RecordedKeys | tts_v2.py:80-97 | A chunk's key is recorded after the run exactly when it was recorded before or the chunk succeeded in this run. |
| Driver.ResumeSkipsSucceeded | tts_v2.py:80-81 | A later call given the keys and progress file a run left tries no chunk that succeeded in that run. The scripts make such a call only after a run was killed or stopped by an uncaught exception, such as the export at tts_v2.py:123; after a caught failure they delete the progress file (Finding 3). |
| Driver.FailedChunkPendingAgain | tts_v2.py:99-101 | The chunk a run stopped at (its synthesis failed, or the process was killed during it) is pending for a later call given the keys the run recorded. |
| Driver.NothingPendingBeforeFailure | tts_v2.py:78-101 | For such a later call, no chunk before the one the run stopped at is pending. |
| Driver.ResumeRetriesFailedChunk | tts_v2.py:78-101 | A later call given the keys and progress file a run left starts with the chunk that run stopped at. As written, only a run that was killed or stopped by an uncaught exception, such as the export at tts_v2.py:123, leads to that call; after a caught failure the progress file is deleted and the next run starts at chunk 0 (Finding 3). |
| Driver.FreshRunStartsAtZero | tts_v2.py:30-36 | Without a progress file, a run tries chunk 0 first. |
| Driver.ReturnedPathsAreSuccesses | tts_v2.py:95-98 | A segment path is returned exactly when its chunk was tried and succeeded in this run. |
| Driver.EarlierSegmentsNotReturned | tts_v2.py:147-150 | The segment of a chunk recorded before the run is never among the paths handed to the merge. |
| Driver.ResumedRunReturnsOnlyNewSegment | tts_v2.py:144-150 | After an interrupted run recorded chunks 0 and 1 of three, the resumed run returns only chunk 2's segment. |
| Driver.GenerateSpeechNoResume | oldanddiff/tts.py:57-73 | Every chunk is tried exactly once, in ascending order, whatever failed before it. `Driver.GenerateSpeechNoResumeOutcome` states which paths it returns. |
| Driver.GenerateSpeechNoResumeOutcome | oldanddiff/tts.py:57-73 | Every chunk is tried once, in ascending order. A failure does not stop later chunks. The paths are the successful chunks' segments, ascending. |
| Driver.NoResumeReturnsExactlySuccesses | oldanddiff/tts.py:59-71 | A segment path is returned exactly when its chunk exists and its synthesis succeeded. |
| Merge.AppendReadableIsConcat | tts_v2.py:116-121 | The loop appends the readable files after the first one, in order, and skips the unreadable ones. |
| Merge.MergeFiles | tts_v2.py:105-123 | Nothing is written when the list is empty or the first file cannot be read. Otherwise the output is the first file followed by every later readable file, in list order. |
| Merge.MergeAllReadable | oldanddiff/tts.py:75-93 | When every file reads, the export is all files concatenated in list order. |
| Merge.WavNames | oldanddiff/tts_v5_thread-broken.py:103 | The filter keeps exactly the names ending in `.wav`. |
| Merge.WavNamesAppend | oldanddiff/tts_v5_thread-broken.py:103 | The filter keeps listing order: it distributes over concatenation of listings. |
| Merge.MergeDirectory | oldanddiff/tts_v5_thread-broken.py:101-127 | The directory merge takes the `.wav` entries in listing order, with the same first-file and skip rules. Nothing is written exactly when there is no entry or the first does not read; otherwise the merged audio is written, or the export fails and is caught. |
| Merge.ConcatAllOutcome | wav.py:12-18 | The script's loop produces audio exactly when every file reads. The audio is then the files concatenated in order after what it started with. |
| Merge.MergeFolder | wav.py:8-22 | The merge writes to `End.wav` in the scanned folder, and fails exactly when some sorted `.wav` entry cannot be read. `Merge.MergeFolderOutcome` states the audio it writes. |
| Merge.MergeFolderOutcome | wav.py:8-22 | The file list is the folder's `.wav` entries, sorted. Merging starts from empty audio, fails when any read fails, and writes `End.wav` into the scanned folder. |
| Merge.StringOrderIsNotChunkOrder | wav.py:9 | As written, `output_10.wav` sorts before `output_2.wav`, so a folder with chunks 2 and 10 is merged as 10 then 2. |
| Merge.WavScriptPutsTenBeforeTwo | wav.py:8-22 | The script as written, over a folder holding readable segments of chunks 2 and 10, writes `End.wav` as chunk 10's audio followed by chunk 2's. |
| Merge.ShortlexIsChunkOrder | wav.py:9 | Ordering segment names by length, then by code points, is exactly the numeric order of their chunk indices. |
| Merge.ChunkOrderMergesInChunkOrder | wav.py:8-22 | With the corrected sort, a folder holding the segments of ascending chunks `idx`, listed in any order, is merged in chunk order. |
| Merge.EndNameSortsFirst | wav.py:21 | `End.wav` passes the `.wav` filter and sorts before every segment name. |
| Merge.SecondRunStartsWithEnd | wav.py:8-22 | Running the script again over the folder merges the previous `End.wav` first. |
| Sorting.Sort | wav.py:9 | The sorted list is ordered and is a permutation of its input. |
| Sorting.SortedUnique | wav.py:9 | Two ordered permutations of one list are equal, so any correct sort gives the same list. |
| Sorting.SortIdentity | wav.py:9 | Sorting returns its input exactly when the input is already ordered. |
| Document.Synthesize | oldanddiff/tts_v5_thread-broken.py:139-154 | After synthesis, the working directory exists and keeps its earlier entries. Only that directory and the progress file may change. |
| Document.WriteSegments | oldanddiff/tts_v5_thread-broken.py:83-94 | Each segment a run synthesised holds its chunk's audio, and every other entry of the directory is kept as it was. |
| Document.MergeStep | oldanddiff/tts_v5_thread-broken.py:157 | The merge changes nothing but `<base>.wav`. When a directory has the name `<base>.wav`, the export failure caught at line 126 leaves the disk unchanged, and a disk with no name that is both a file and a directory keeps that property. |
| Document.Cleanup | oldanddiff/tts_v5_thread-broken.py:159-167 | With a complete listing, the working directory and the progress file are removed. If an entry is left, `os.rmdir` raises and the directory and progress file stay. Audio files are untouched. |
| Document.Process | oldanddiff/tts_v5_thread-broken.py:136-167 | Processing one document touches only its working directory, its progress file and `<base>.wav`, and the progress file is gone whenever the working directory is. `Document.ProcessCleansUp` states the complete-listing outcome. |
| Document.ProcessKeepsFilesApart | oldanddiff/tts_v5_thread-broken.py:136-167 | When the working directory's name is not a file and the progress file's name is not a directory, processing never gives one name to both a file and a directory. |
| Document.ProcessCleansUp | oldanddiff/tts_v5_thread-broken.py:136-167 | With a complete listing, processing a document leaves no working directory and no progress file, however far synthesis got. Apart from `<base>.wav`, nothing else changes. |
| Document.SegmentsAtMerge | oldanddiff/tts_v5_thread-broken.py:142-157 | An entry left by an earlier run is still in the working directory at the merge, unchanged unless this run rewrote its chunk. Every segment this run returned is there, holding the audio its synthesis produced. |
| Document.EarlierSegmentsMerged | oldanddiff/tts_v5_thread-broken.py:101-157 | With a complete listing, both earlier runs' segments and this run's segments are among the names the merge reads; whether an entry contributes audio is `Document.MergeStepOutcome`. |
| Document.MergeStepOutcome | oldanddiff/tts_v5_thread-broken.py:101-127 | For any listing and any entries, decodable or not: nothing changes when there is no `.wav` name or the first does not decode. Otherwise `<base>.wav` becomes the first entry's audio followed by every later one that decodes, in listing order; when the export fails it is left damaged. A directory named `<base>.wav` makes the export fail before anything is written, so nothing changes. |
| Document.FailedRunForgetsProgress | oldanddiff/tts_v5_thread-broken.py:154-167 | With a complete listing, processing a document of at least one sentence always deletes its progress file, so the next run starts at chunk 0 even after a caught failure. |
| Document.KeptProgressRetriesFailedChunk | oldanddiff/tts_v5_thread-broken.py:150-167 | When a failed run keeps its segments and progress file, the next run starts with the failed chunk and synthesises no chunk that succeeded. |

## Left out

- Speech synthesis (`tts.tts_to_file`) is the injected `ok`/`synth`.
- Document.WriteSegments: a `tts_to_file` call that raises is taken to leave no file behind. A file cut short by a killed run is covered as a `Damaged` entry left by an earlier run.
- NLTK sentence splitting and its `LookupError` path, which returns `[]`. The sentence list is an input.
- The GPT-2 tokenizer is the injected `tok`.
- Reading `.docx` files (`read_text_from_docx`) is not modelled. Its text is only handed to the sentence splitter.
- pydub decoding is the injected `load`. Whether an export succeeds is the injected `exportOk` in the merges of oldanddiff/tts_v5_thread-broken.py. The other merges take every export to succeed, as the next two lines say. Audio concatenation is sequence concatenation, with no format or sample-rate handling.
- Merge.MergeFiles: the export at tts_v2.py:123 and oldanddiff/tts.py:93 can raise uncaught. The model assumes that export succeeds.
- Merge.MergeFolderOutcome: the export at wav.py:22 can raise uncaught, which ends the script and may leave `End.wav` damaged. The model assumes that export succeeds.
- Exceptions from `save_progress`, `os.remove` and `os.makedirs` are not modelled. This includes tts_v2.py:157 raising when no progress file exists.
- The top-level script of tts_v2.py (lines 132-158) is not modelled as a whole. Its driver and merge are, and Finding 2 covers what it merges.
- `print` output is not modelled.
- The `ThreadPoolExecutor` at oldanddiff/tts_v5_thread-broken.py:173-174 is not modelled. Documents are processed one at a time, and the shared model and tokenizer are not represented.
- `os.listdir` order is an input. `Document.ListsExactly` states that it lists each entry. The order Python gives is platform-dependent.
- The order in which Python iterates a `set` while saving is modelled as insertion order. Loading forgets order, and the lemmas state results as sets.
- `os.path.join` and `os.path.basename` are modelled with `/` as the only separator. The source's Windows paths use `\` as well.
- Document.MergeStep: an export that raises before pydub opens `<base>.wav` would leave an earlier file intact. The model always leaves it `Damaged`, except when a directory has that name.
- Document.ProcessKeepsFilesApart: `os.makedirs` at oldanddiff/tts_v5_thread-broken.py:142 raises when a file has the working directory's name, and saving progress raises when a directory has the progress file's name. Neither clash is modelled, so the lemma requires both names to be free.
- Document.Cleanup: a listing that names a missing file, or names one twice, would make `os.remove` raise. `os.listdir` returns neither, and the model skips such a name.
- Progress.LoadAfterSave: the file's text encoding is not modelled. Writing in text mode is taken to keep `\n` as is, as on POSIX systems. Reading applies universal newlines.
- The helper script `oldanddiff/nltkk.py` is not part of this model. It holds its own sentence splitter, which uses NLTK's `sent_tokenize` with a regular-expression fallback, plus `.docx` reading and writing. It downloads NLTK data only when a `LookupError` is raised.

## Findings

| source | as written | input that shows it | evidently intended | confidence | as-written member | corrected member |
|---|---|---|---|---|---|---|
| wav.py:9 | `audio_files.sort()` orders segment names as strings | a folder holding `output_2.wav` and `output_10.wav`: the list becomes `["output_10.wav", "output_2.wav"]`, so chunk 10 is heard before chunk 2 | merge segments in chunk order, for example with `sort(key=lambda f: (len(f), f))` | not executed | Merge.StringOrderIsNotChunkOrder | Merge.ChunkOrderMergesInChunkOrder |
| tts_v2.py:147-150 | the merge receives only the paths this run produced | three chunks; an earlier run was killed after saving progress `0,1`; the resumed run synthesises chunk 2 and merges `temp_audio/output_2.wav` alone, so chunks 0 and 1 are missing from the output | merge every segment of the working directory, as oldanddiff/tts_v5_thread-broken.py:101-104 does | not executed | Driver.ResumedRunReturnsOnlyNewSegment | Document.EarlierSegmentsMerged |
| oldanddiff/tts_v5_thread-broken.py:157-167 | after `generate_speech` catches a synthesis failure, `process_document` still merges and then deletes the segments and the progress file | three chunks; chunk 0 succeeds and chunk 1 fails: `<base>.wav` holds chunk 0 only, the progress file is gone, and the next run synthesises chunk 0 again | keep the segments and the progress file when a chunk failed, so that the next run resumes at it | not executed | Document.FailedRunForgetsProgress | Document.KeptProgressRetriesFailedChunk |

=== FILE: chunker.dfy ===
/**
  The greedy sentence-packing chunker (`split_text_by_sentences`), identical
  in tts_v2.py, oldanddiff/tts.py and oldanddiff/tts_v5_thread-broken.py.
  The sentence tokenizer's output is the input sequence and the sub-word
  tokenizer is the injected `tok` (the length of its token list).

  The chunker is written twice: `Groups`, a fold over sentences that keeps
  the sentences of each chunk, and `SplitTextBySentences`, the string loop of
  the source, proved to produce the stripped text of those groups.
 */
module Chunker {
  import opened Strings
  import opened Seqs

  /** Default budgets in tts_v2.py and oldanddiff/tts.py. */
  const DefaultMaxChars := 200
  const DefaultMaxTokens := 300
  /** Default budgets in oldanddiff/tts_v5_thread-broken.py. */
  const ThreadedMaxChars := 226
  const ThreadedMaxTokens := 390

  /** The two budgets and the token estimator `len(tokenizer.tokenize(s))`. */
  datatype Budget = Budget(maxChars: int, maxTokens: int, tok: string -> nat)

  /** The buffer text for sentences `g`: each one followed by a single space. */
  function Spaced(g: seq<string>): (r: string)
    ensures |r| >= |g|
    decreases |g|
  {
    if |g| == 0 then "" else Spaced(g[..|g| - 1]) + g[|g| - 1] + " "
  }

  /** The running token count for sentences `g`: per-sentence estimates summed. */
  function Tokens(g: seq<string>, tok: string -> nat): nat
    decreases |g|
  {
    if |g| == 0 then 0 else Tokens(g[..|g| - 1], tok) + tok(g[|g| - 1])
  }

  /** A sentence that alone breaks either budget. */
  predicate Oversized(s: string, b: Budget) {
    |s| > b.maxChars || b.tok(s) > b.maxTokens
  }

  /**
    A run of sentences fits one chunk: a single sentence always does;
    several do when their space-joined text and token sum are within budget.
   */
  predicate Fits(g: seq<string>, b: Budget) {
    |g| <= 1 || (|Join(g, ' ')| <= b.maxChars && Tokens(g, b.tok) <= b.maxTokens)
  }

  /**
    What a greedy packing is, independent of how it is computed: the groups
    partition the sentences in order, each group is non-empty and fits, and
    no group could have taken the first sentence of the next one.
   */
  ghost predicate ValidPacking(ss: seq<string>, gs: seq<seq<string>>, b: Budget) {
    && Flatten(gs) == ss
    && (forall k :: 0 <= k < |gs| ==> |gs[k]| > 0 && Fits(gs[k], b))
    && (forall k :: 0 <= k < |gs| - 1 ==> !Fits(gs[k] + [gs[k + 1][0]], b))
  }

  /** Closed chunks and the open buffer, as sentence groups. */
  datatype Buffer = Buffer(done: seq<seq<string>>, current: seq<string>)

  /** The test of tts_v2.py:61-62: the buffer text (with its trailing space) plus the sentence, and the token sum. */
  predicate Admits(current: seq<string>, s: string, b: Budget) {
    |Spaced(current)| + |s| <= b.maxChars && Tokens(current, b.tok) + b.tok(s) <= b.maxTokens
  }

  /** One iteration of the loop at tts_v2.py:56-69. */
  function Absorb(buf: Buffer, s: string, b: Budget): Buffer {
    if Admits(buf.current, s, b) then Buffer(buf.done, buf.current + [s])
    else Buffer(if |buf.current| > 0 then buf.done + [buf.current] else buf.done, [s])
  }

  /** The buffer after the loop has consumed all of `ss`. */
  function Accumulate(ss: seq<string>, b: Budget): Buffer
    decreases |ss|
  {
    if |ss| == 0 then Buffer([], []) else Absorb(Accumulate(ss[..|ss| - 1], b), ss[|ss| - 1], b)
  }

  /** The chunks as sentence groups, after the final flush at tts_v2.py:71-72. */
  function Groups(ss: seq<string>, b: Budget): seq<seq<string>> {
    var buf := Accumulate(ss, b);
    if |buf.current| > 0 then buf.done + [buf.current] else buf.done
  }

  /** The text `current_chunk.strip()` of each group. */
  function ChunkTexts(gs: seq<seq<string>>): seq<string> {
    seq(|gs|, k requires 0 <= k < |gs| => Strip(Spaced(gs[k])))
  }

  /** Each chunk text is its group's sentences joined by single spaces. */
  predicate SpaceJoined(chunks: seq<string>, gs: seq<seq<string>>) {
    |chunks| == |gs| && forall k :: 0 <= k < |gs| ==> chunks[k] == Join(gs[k], ' ')
  }

  /** Sentences as the sentence tokenizer delivers them: non-empty, no edge whitespace. */
  predicate WellFormed(ss: seq<string>) {
    forall k :: 0 <= k < |ss| ==> |ss[k]| > 0 && NoEdgeSpace(ss[k])
  }

  /**
    `split_text_by_sentences` after sentence splitting, as the source's loop
    over strings. Its chunks are the stripped texts of `Groups`, and for
    well-formed sentences each chunk is its group joined by single spaces.
   */
  method SplitTextBySentences(sentences: seq<string>, b: Budget) returns (chunks: seq<string>)
    ensures chunks == ChunkTexts(Groups(sentences, b))
    ensures WellFormed(sentences) ==> SpaceJoined(chunks, Groups(sentences, b))
  {
    var current;
    chunks, current := PackLoop(sentences, b);
    FinalFlush(sentences, b, chunks, current);
    if current != "" {
      chunks := chunks + [Strip(current)];
    }
  }

  /** The loop of tts_v2.py:56-69: closed chunk texts and the open buffer text. */
  method PackLoop(sentences: seq<string>, b: Budget) returns (chunks: seq<string>, current: string)
    ensures chunks == ChunkTexts(Accumulate(sentences, b).done)
    ensures current == Spaced(Accumulate(sentences, b).current)
  {
    chunks := [];
    current := "";
    var count: nat := 0;
    var i := 0;
    ghost var buf := Buffer([], []);
    while i < |sentences|
      invariant 0 <= i <= |sentences|
      invariant buf == Accumulate(sentences[..i], b)
      invariant current == Spaced(buf.current)
      invariant count == Tokens(buf.current, b.tok)
      invariant chunks == ChunkTexts(buf.done)
    {
      assert sentences[..i + 1][..i] == sentences[..i];
      chunks, current, count := AbsorbText(chunks, current, count, buf, sentences[i], b);
      buf := Absorb(buf, sentences[i], b);
      i := i + 1;
    }
    assert sentences[..i] == sentences;
  }

  /** One iteration of the loop at tts_v2.py:56-69 on the string state, mirroring `Absorb`. */
  method AbsorbText(chunks: seq<string>, current: string, count: nat, ghost buf: Buffer, s: string, b: Budget)
    returns (chunks': seq<string>, current': string, count': nat)
    requires current == Spaced(buf.current)
    requires count == Tokens(buf.current, b.tok)
    requires chunks == ChunkTexts(buf.done)
    ensures current' == Spaced(Absorb(buf, s, b).current)
    ensures count' == Tokens(Absorb(buf, s, b).current, b.tok)
    ensures chunks' == ChunkTexts(Absorb(buf, s, b).done)
  {
    var n := b.tok(s);
    if |current| + |s| <= b.maxChars && count + n <= b.maxTokens {
      AdmitStep(buf, s, b);
      chunks', current', count' := chunks, current + s + " ", count + n;
    } else {
      CloseStep(buf, s, b);
      chunks' := if current != "" then chunks + [Strip(current)] else chunks;
      current', count' := s + " ", n;
    }
  }

  /** The string state after a sentence the buffer admits. */
  lemma AdmitStep(buf: Buffer, s: string, b: Budget)
    requires Admits(buf.current, s, b)
    ensures Absorb(buf, s, b).done == buf.done
    ensures Spaced(Absorb(buf, s, b).current) == Spaced(buf.current) + s + " "
    ensures Tokens(Absorb(buf, s, b).current, b.tok) == Tokens(buf.current, b.tok) + b.tok(s)
  {
    ExtendBuffer(buf.current, s, b);
  }

  /** The string state after a sentence the buffer does not admit. */
  lemma CloseStep(buf: Buffer, s: string, b: Budget)
    requires !Admits(buf.current, s, b)
    ensures ChunkTexts(Absorb(buf, s, b).done) ==
      if Spaced(buf.current) != "" then ChunkTexts(buf.done) + [Strip(Spaced(buf.current))] else ChunkTexts(buf.done)
    ensures Spaced(Absorb(buf, s, b).current) == s + " "
    ensures Tokens(Absorb(buf, s, b).current, b.tok) == b.tok(s)
  {
    var next := Absorb(buf, s, b);
    assert next.current == [] + [s];
    ExtendBuffer([], s, b);
    if |buf.current| > 0 {
      assert next.done == buf.done + [buf.current];
      ChunkTextsSnoc(buf.done, buf.current);
    } else {
      assert next.done == buf.done;
      assert Spaced(buf.current) == "";
    }
  }

  /** The flush after the loop (tts_v2.py:71-72) completes the chunk list. */
  lemma FinalFlush(ss: seq<string>, b: Budget, chunks: seq<string>, current: string)
    requires chunks == ChunkTexts(Accumulate(ss, b).done)
    requires current == Spaced(Accumulate(ss, b).current)
    ensures var all := if current != "" then chunks + [Strip(current)] else chunks;
      all == ChunkTexts(Groups(ss, b)) && (WellFormed(ss) ==> SpaceJoined(all, Groups(ss, b)))
  {
    var final := Accumulate(ss, b);
    if current != "" {
      ChunkTextsSnoc(final.done, final.current);
    }
    if WellFormed(ss) {
      ChunkTextsAreJoins(ss, b);
    }
  }

  /** Appending a sentence to the buffer appends it and a space to the text and adds its tokens. */
  lemma ExtendBuffer(g: seq<string>, s: string, b: Budget)
    ensures Spaced(g + [s]) == Spaced(g) + s + " "
    ensures Tokens(g + [s], b.tok) == Tokens(g, b.tok) + b.tok(s)
  {
    assert (g + [s])[..|g|] == g;
  }

  lemma ChunkTextsSnoc(gs: seq<seq<string>>, g: seq<string>)
    ensures ChunkTexts(gs + [g]) == ChunkTexts(gs) + [Strip(Spaced(g))]
  {
  }

  /** The buffer text is the space-join plus one trailing space. */
  lemma {:induction false} SpacedIsJoin(g: seq<string>)
    requires |g| > 0
    ensures Spaced(g) == Join(g, ' ') + " "
    decreases |g|
  {
    if |g| > 1 {
      var init := g[..|g| - 1];
      SpacedIsJoin(init);
      JoinSnoc(init, g[|g| - 1], ' ');
      assert init + [g[|g| - 1]] == g;
    }
  }

  /** Adding a sentence to a non-empty group: the joined length grows by the separator and the sentence. */
  lemma AppendSentence(g: seq<string>, s: string, b: Budget)
    requires |g| > 0
    ensures |Join(g + [s], ' ')| == |Spaced(g)| + |s|
    ensures Tokens(g + [s], b.tok) == Tokens(g, b.tok) + b.tok(s)
  {
    SpacedIsJoin(g);
    JoinSnoc(g, s, ' ');
    assert (g + [s])[..|g|] == g;
  }

  /** The state of the loop at every step, stated without reference to the loop. */
  ghost predicate Consistent(ss: seq<string>, buf: Buffer, b: Budget) {
    && Flatten(buf.done) + buf.current == ss
    && (forall k :: 0 <= k < |buf.done| ==> |buf.done[k]| > 0 && Fits(buf.done[k], b))
    && (forall k :: 0 <= k < |buf.done| - 1 ==> !Fits(buf.done[k] + [buf.done[k + 1][0]], b))
    && Fits(buf.current, b)
    && (|buf.current| == 0 ==> buf.done == [] && ss == [])
    && (|buf.done| > 0 ==> !Fits(buf.done[|buf.done| - 1] + [buf.current[0]], b))
  }

  lemma AbsorbKeepsConsistent(ss: seq<string>, buf: Buffer, s: string, b: Budget)
    requires Consistent(ss, buf, b)
    ensures Consistent(ss + [s], Absorb(buf, s, b), b)
  {
    if Admits(buf.current, s, b) {
      AdmitKeepsConsistent(ss, buf, s, b);
    } else if |buf.current| > 0 {
      CloseKeepsConsistent(ss, buf, s, b);
    }
  }

  /** A sentence the buffer admits joins the current group. */
  lemma AdmitKeepsConsistent(ss: seq<string>, buf: Buffer, s: string, b: Budget)
    requires Consistent(ss, buf, b) && Admits(buf.current, s, b)
    ensures Consistent(ss + [s], Buffer(buf.done, buf.current + [s]), b)
  {
    if |buf.current| > 0 {
      AppendSentence(buf.current, s, b);
      assert (buf.current + [s])[0] == buf.current[0];
    }
  }

  /** A sentence the non-empty buffer does not admit closes the current group and starts the next. */
  lemma CloseKeepsConsistent(ss: seq<string>, buf: Buffer, s: string, b: Budget)
    requires Consistent(ss, buf, b) && !Admits(buf.current, s, b) && |buf.current| > 0
    ensures Consistent(ss + [s], Buffer(buf.done + [buf.current], [s]), b)
  {
    FlattenSnoc(buf.done, buf.current);
    AppendSentence(buf.current, s, b);
    var d := buf.done + [buf.current];
    forall k | 0 <= k < |d| - 1
      ensures !Fits(d[k] + [d[k + 1][0]], b)
    {
      if k == |d| - 2 {
        assert d[k + 1] == buf.current;
      } else {
        assert d[k] == buf.done[k] && d[k + 1] == buf.done[k + 1];
      }
    }
  }

  lemma {:induction false} AccumulateConsistent(ss: seq<string>, b: Budget)
    ensures Consistent(ss, Accumulate(ss, b), b)
    decreases |ss|
  {
    if |ss| > 0 {
      var init, last := ss[..|ss| - 1], ss[|ss| - 1];
      assert init + [last] == ss;
      var before := Accumulate(init, b);
      assert Accumulate(ss, b) == Absorb(before, last, b);
      AccumulateConsistent(init, b);
      AbsorbKeepsConsistent(init, before, last, b);
    }
  }

  /**
    The chunker computes a greedy packing: flattening its groups gives back
    the sentences exactly, in order, nothing dropped, duplicated or split;
    every group is non-empty and fits; consecutive groups are maximal.
    No sentences give no chunks.
   */
  lemma GroupsArePacking(ss: seq<string>, b: Budget)
    ensures ValidPacking(ss, Groups(ss, b), b)
    ensures ss == [] ==> Groups(ss, b) == []
  {
    var buf := Accumulate(ss, b);
    AccumulateConsistent(ss, b);
    if |buf.current| > 0 {
      FlattenSnoc(buf.done, buf.current);
      var gs := buf.done + [buf.current];
      forall k | 0 <= k < |gs| - 1
        ensures !Fits(gs[k] + [gs[k + 1][0]], b)
      {
        if k == |gs| - 2 {
          assert gs[k + 1] == buf.current;
        } else {
          assert gs[k] == buf.done[k] && gs[k + 1] == buf.done[k + 1];
        }
      }
    }
  }

  /** For well-formed sentences the chunk texts are the groups joined by single spaces. */
  lemma ChunkTextsAreJoins(ss: seq<string>, b: Budget)
    requires WellFormed(ss)
    ensures SpaceJoined(ChunkTexts(Groups(ss, b)), Groups(ss, b))
  {
    var gs := Groups(ss, b);
    GroupsArePacking(ss, b);
    forall k | 0 <= k < |gs|
      ensures Strip(Spaced(gs[k])) == Join(gs[k], ' ')
    {
      FlattenMember(gs, k);
      forall j | 0 <= j < |gs[k]|
        ensures |gs[k][j]| > 0 && NoEdgeSpace(gs[k][j])
      {
        assert gs[k][j] in Flatten(gs);
      }
      SpacedIsJoin(gs[k]);
      JoinNonEmptyNoEdgeSpace(gs[k], ' ');
      StripTrailingSpace(Join(gs[k], ' '));
    }
  }

  /** Every member of a group is bounded by the group's joined length and token sum. */
  lemma {:induction false} MemberWithinGroup(g: seq<string>, j: nat, b: Budget)
    requires j < |g|
    ensures |g[j]| <= |Join(g, ' ')|
    ensures b.tok(g[j]) <= Tokens(g, b.tok)
    decreases |g|
  {
    var init := g[..|g| - 1];
    if j < |g| - 1 {
      MemberWithinGroup(init, j, b);
      assert init[j] == g[j];
      AppendSentence(init, g[|g| - 1], b);
      assert init + [g[|g| - 1]] == g;
      SpacedIsJoin(init);
    } else if |g| > 1 {
      AppendSentence(init, g[j], b);
      assert init + [g[j]] == g;
    }
  }

  /** Shortening a group keeps it within the budget it was within. */
  lemma {:induction false} PrefixFits(g: seq<string>, k: nat, b: Budget)
    requires 1 <= k <= |g|
    requires Fits(g, b)
    ensures Fits(g[..k], b)
    decreases |g| - k
  {
    if k < |g| {
      var init := g[..|g| - 1];
      if |init| >= 2 {
        AppendSentence(init, g[|g| - 1], b);
        assert init + [g[|g| - 1]] == g;
        SpacedIsJoin(init);
        PrefixFits(init, k, b);
        assert init[..k] == g[..k];
      }
    } else {
      assert g[..k] == g;
    }
  }

  /** Dropping the first group of a greedy packing leaves a greedy packing of the remaining sentences. */
  lemma PackingTail(ss: seq<string>, gs: seq<seq<string>>, b: Budget)
    requires |gs| > 0
    requires ValidPacking(ss, gs, b)
    ensures |gs[0]| <= |ss| && ss[..|gs[0]|] == gs[0]
    ensures ValidPacking(ss[|gs[0]|..], gs[1..], b)
  {
    assert ss == gs[0] + Flatten(gs[1..]);
    assert ss[|gs[0]|..] == Flatten(gs[1..]);
    forall k | 0 <= k < |gs[1..]| - 1
      ensures !Fits(gs[1..][k] + [gs[1..][k + 1][0]], b)
    {
      assert gs[1..][k] == gs[k + 1] && gs[1..][k + 1] == gs[k + 2];
    }
  }

  /**
    A greedy packing is unique: two packings of the same sentences under the
    same budget are equal. With `GroupsArePacking` this makes `ValidPacking`
    a complete description of what the chunker returns.
   */
  lemma {:induction false} PackingUnique(ss: seq<string>, g1: seq<seq<string>>, g2: seq<seq<string>>, b: Budget)
    requires ValidPacking(ss, g1, b) && ValidPacking(ss, g2, b)
    ensures g1 == g2
    decreases |ss|
  {
    if |g1| == 0 || |g2| == 0 {
    } else {
      PackingTail(ss, g1, b);
      PackingTail(ss, g2, b);
      var a, c := g1[0], g2[0];
      if |a| < |c| {
        FirstGroupMaximal(ss, g1, g2, b);
      } else if |c| < |a| {
        FirstGroupMaximal(ss, g2, g1, b);
      }
      assert a == ss[..|a|] == c;
      PackingUnique(ss[|a|..], g1[1..], g2[1..], b);
      assert g1 == [a] + g1[1..] && g2 == [c] + g2[1..];
    }
  }

  /** The first group of a greedy packing cannot be shorter than the first group of another. */
  lemma FirstGroupMaximal(ss: seq<string>, g1: seq<seq<string>>, g2: seq<seq<string>>, b: Budget)
    requires |g1| > 0 && |g2| > 0
    requires ValidPacking(ss, g1, b) && ValidPacking(ss, g2, b)
    ensures |g1[0]| >= |g2[0]|
  {
    PackingTail(ss, g1, b);
    PackingTail(ss, g2, b);
    var a, c := g1[0], g2[0];
    if |a| < |c| {
      var rest := Flatten(g1[1..]);
      assert ss == a + rest;
      assert |rest| > 0;
      assert |g1| > 1;
      assert g1[1..] == [g1[1]] + g1[2..];
      assert rest == g1[1] + Flatten(g1[2..]);
      assert rest[0] == g1[1][0];
      assert c[..|a| + 1] == ss[..|a| + 1] == a + [g1[1][0]];
      PrefixFits(c, |a| + 1, b);
      assert false;
    }
  }

  /**
    The bound respected by the chunker: a chunk either is within both budgets
    or is one sentence alone; a sentence that alone breaks a budget is
    always a chunk of its own, never merged with a neighbour.
   */
  lemma GroupsWithinBudget(ss: seq<string>, b: Budget)
    ensures forall g :: g in Groups(ss, b) ==>
      (|Join(g, ' ')| <= b.maxChars && Tokens(g, b.tok) <= b.maxTokens) || (|g| == 1 && Oversized(g[0], b))
    ensures forall g, j :: g in Groups(ss, b) && 0 <= j < |g| && Oversized(g[j], b) ==> |g| == 1
  {
    var gs := Groups(ss, b);
    GroupsArePacking(ss, b);
    forall g | g in gs
      ensures (|Join(g, ' ')| <= b.maxChars && Tokens(g, b.tok) <= b.maxTokens) || (|g| == 1 && Oversized(g[0], b))
      ensures forall j :: 0 <= j < |g| && Oversized(g[j], b) ==> |g| == 1
    {
      var k :| 0 <= k < |gs| && gs[k] == g;
      assert |g| > 0 && Fits(g, b);
      forall j | 0 <= j < |g| && Oversized(g[j], b)
        ensures |g| == 1
      {
        MemberWithinGroup(g, j, b);
      }
      if |g| == 1 {
        assert Join(g, ' ') == g[0];
        assert g == [] + [g[0]];
        assert Tokens(g, b.tok) == b.tok(g[0]);
      }
    }
  }

  /**
    The source's own arithmetic on three two-character sentences: with a
    five-character budget, "B." is admitted after the buffer "A. " because
    `len("A. ") + len("B.") == 5`, so the chunks are "A. B." and "C.".
   */
  lemma SmallBudgetExample()
    ensures Groups(["A.", "B.", "C."], Budget(5, DefaultMaxTokens, s => 1)) == [["A.", "B."], ["C."]]
  {
    var ss := ["A.", "B.", "C."];
    var small := Budget(5, DefaultMaxTokens, s => 1);
    PrefixesOfThree(ss);
    SpacedOfTwo("A.", "B.", small);
    assert Accumulate(ss[..1], small) == Buffer([], ["A."]);
    assert Accumulate(ss[..2], small) == Buffer([], ["A.", "B."]);
    assert Accumulate(ss, small) == Buffer([["A.", "B."]], ["C."]);
  }

  /** With the default budgets of tts_v2.py:43 the same three sentences form one chunk. */
  lemma DefaultBudgetExample()
    ensures Groups(["A.", "B.", "C."], Budget(DefaultMaxChars, DefaultMaxTokens, s => 1)) == [["A.", "B.", "C."]]
  {
    var ss := ["A.", "B.", "C."];
    var large := Budget(DefaultMaxChars, DefaultMaxTokens, s => 1);
    PrefixesOfThree(ss);
    SpacedOfTwo("A.", "B.", large);
    assert Accumulate(ss[..1], large) == Buffer([], ["A."]);
    assert Accumulate(ss[..2], large) == Buffer([], ["A.", "B."]);
    assert Accumulate(ss, large) == Buffer([], ["A.", "B.", "C."]);
  }

  lemma PrefixesOfThree(ss: seq<string>)
    requires |ss| == 3
    ensures ss[..0] == [] && ss[..1][..0] == [] && ss[..2][..1] == ss[..1] && ss[..3][..2] == ss[..2] && ss[..3] == ss
  {
  }

  /** Buffer text and token count for one and two sentences of two characters each, one token apiece. */
  lemma SpacedOfTwo(x: string, y: string, b: Budget)
    requires |x| == 2 && |y| == 2
    requires b.tok(x) == 1 && b.tok(y) == 1
    ensures |Spaced([x])| == 3 && |Spaced([x, y])| == 6
    ensures Tokens([x], b.tok) == 1 && Tokens([x, y], b.tok) == 2
  {
    assert [x][..0] == [];
    assert [x, y][..1] == [x];
  }
}

=== FILE: document.dfy ===
/**
  `process_document(docx_file_path)` of oldanddiff/tts_v5_thread-broken.py:136-167,
  over a model of the file system: text files and audio files of the current
  directory, and directories holding audio files by name.

  Everything the function calls outside the pipeline is an input: the
  document's sentences (read with python-docx and split with NLTK), the
  tokenizer, the synthesis of each chunk, whether the export of the merged
  audio succeeds, and the order in which `os.listdir` lists a directory.
 */
module Document {
  import opened Wrappers
  import opened Seqs
  import opened Strings
  import opened Paths
  import Progress
  import Chunker
  import opened Driver
  import opened Merge

  /**
    An audio file as `AudioSegment.from_wav` sees it: samples it decodes, or
    a file it cannot decode, such as a segment cut short when a run was killed
    inside `tts_to_file` or an output left by a failed export.
   */
  datatype AudioFile<A> = Wav(samples: seq<A>) | Damaged

  /**
    The file system as the pipeline sees it. Text and audio files are kept in
    separate maps, so the model could give one name to both; the pipeline
    writes text only at `progress_<base>.txt` and audio only at names ending
    in `.wav`, so it never creates such a pair.
   */
  datatype Disk<A> = Disk(texts: map<string, string>, audio: map<string, AudioFile<A>>,
                          dirs: map<string, map<string, AudioFile<A>>>)

  /**
    What the pipeline gets from outside: `tok` counts GPT-2 tokens,
    `synth(idx)` is the audio `tts_to_file` writes for chunk `idx` (`None`
    when it raises), `exportOk` says whether exporting merged audio succeeds,
    and `listdir` gives the names of a directory in `os.listdir` order.
   */
  datatype Env<!A> = Env(tok: string -> nat, synth: nat -> Option<seq<A>>, exportOk: seq<A> -> bool,
                        listdir: set<string> -> seq<string>)

  /** `os.listdir` names every entry of a directory exactly once. */
  predicate ListsExactly<A>(env: Env<A>, names: set<string>) {
    Elems(env.listdir(names)) == names
  }

  /** No chunk of `done` that synthesised writes the name `n`. */
  ghost predicate Untouched<A>(n: string, done: seq<nat>, synth: nat -> Option<seq<A>>) {
    forall k :: 0 <= k < |done| && synth(done[k]).Some? ==> SegmentName(done[k]) != n
  }

  /**
    The segment of every chunk synthesised in this run, written into the
    directory's entries: each holds the audio of its chunk, and every other
    entry is kept as it was.
   */
  function WriteSegments<A>(entries: map<string, AudioFile<A>>, done: seq<nat>, synth: nat -> Option<seq<A>>)
    : (e: map<string, AudioFile<A>>)
    ensures SegmentsWritten(entries, done, synth, e)
    decreases |done|
  {
    if done == [] then entries
    else
      var next := match synth(done[0]) case Some(audio) => entries[SegmentName(done[0]) := Wav(audio)] case None => entries;
      var e := WriteSegments(next, done[1..], synth);
      WriteStep(entries, next, e, done, synth);
      e
  }

  /** The entries `e` hold the segments of `done` written over `entries`. */
  ghost predicate SegmentsWritten<A>(entries: map<string, AudioFile<A>>, done: seq<nat>, synth: nat -> Option<seq<A>>,
                                     e: map<string, AudioFile<A>>) {
    && entries.Keys <= e.Keys
    && (forall k :: 0 <= k < |done| && synth(done[k]).Some? ==>
          SegmentName(done[k]) in e && e[SegmentName(done[k])] == Wav(synth(done[k]).value))
    && (forall n :: n in entries && Untouched(n, done, synth) ==> e[n] == entries[n])
  }

  /** Writing the first segment and then the rest writes them all. */
  lemma WriteStep<A>(entries: map<string, AudioFile<A>>, next: map<string, AudioFile<A>>, e: map<string, AudioFile<A>>,
                     done: seq<nat>, synth: nat -> Option<seq<A>>)
    requires |done| > 0
    requires next == match synth(done[0]) case Some(audio) => entries[SegmentName(done[0]) := Wav(audio)] case None => entries
    requires SegmentsWritten(next, done[1..], synth, e)
    ensures SegmentsWritten(entries, done, synth, e)
  {
    var rest := done[1..];
    forall k | 0 <= k < |done| && synth(done[k]).Some?
      ensures SegmentName(done[k]) in e && e[SegmentName(done[k])] == Wav(synth(done[k]).value)
    {
      if k > 0 {
        assert done[k] == rest[k - 1];
      } else if !Untouched(SegmentName(done[0]), rest, synth) {
        var j :| 0 <= j < |rest| && synth(rest[j]).Some? && SegmentName(rest[j]) == SegmentName(done[0]);
        SegmentNameInjective(rest[j], done[0]);
      }
    }
    forall n | n in entries && Untouched(n, done, synth)
      ensures e[n] == entries[n]
    {
      assert Untouched(n, rest, synth) by {
        forall j | 0 <= j < |rest| && synth(rest[j]).Some?
          ensures SegmentName(rest[j]) != n
        {
          assert rest[j] == done[j + 1];
        }
      }
    }
  }

  /** The directory's entries by path, for `AudioSegment.from_wav(os.path.join(output_dir, f))`. */
  function EntriesByPath<A>(dir: string, entries: map<string, AudioFile<A>>): (files: map<string, AudioFile<A>>)
    ensures forall n :: JoinPath(dir, n) in files <==> n in entries
    ensures forall n :: n in entries ==> files[JoinPath(dir, n)] == entries[n]
  {
    assert forall n1, n2 :: JoinPath(dir, n1) == JoinPath(dir, n2) ==> n1 == n2 by {
      forall n1, n2 | JoinPath(dir, n1) == JoinPath(dir, n2)
        ensures n1 == n2
      {
        JoinPathInjective(dir, n1, n2);
      }
    }
    map n | n in entries :: JoinPath(dir, n) := entries[n]
  }

  /** `AudioSegment.from_wav` on a file of `files`: `None` when there is none or it does not decode. */
  function LoadAudio<A>(files: map<string, AudioFile<A>>): string -> Option<seq<A>> {
    p => if p in files && files[p].Wav? then Some(files[p].samples) else None
  }

  /** Reading the entries through their paths in the directory is reading them by name. */
  lemma {:induction false} ReadableInDirectory<A>(dir: string, entries: map<string, AudioFile<A>>, names: seq<string>)
    ensures Readable(InDirectory(dir, names), LoadAudio(EntriesByPath(dir, entries))) == Readable(names, LoadAudio(entries))
    decreases |names|
  {
    if names != [] {
      assert InDirectory(dir, names)[1..] == InDirectory(dir, names[1..]);
      ReadableInDirectory(dir, entries, names[1..]);
    }
  }

  /** The chunk texts of the document, with the budgets of oldanddiff/tts_v5_thread-broken.py:41. */
  function DocumentChunks<A>(sentences: seq<string>, env: Env<A>): seq<string> {
    Chunker.ChunkTexts(Chunker.Groups(sentences, Chunker.Budget(Chunker.ThreadedMaxChars, Chunker.ThreadedMaxTokens, env.tok)))
  }

  /** Lines 139-154: load the progress file and run the resuming driver, for the document base name `base`. */
  function Run<A>(base: string, sentences: seq<string>, env: Env<A>, disk: Disk<A>): (r: Resume)
    ensures |r.paths| <= |r.attempted|
  {
    var progress := ProgressPath(base);
    var saved := if progress in disk.texts then Some(disk.texts[progress]) else None;
    GenerateSpeech(FileNameKey, DocumentChunks(sentences, env), WorkDir(base), Progress.LoadKeys(saved), saved,
                   (i: nat) => env.synth(i).Some?)
  }

  /**
    The disk after line 154: the directory exists and holds its earlier
    entries and this run's segments, the progress file is saved, and nothing
    else has changed.
   */
  function Synthesize<A>(base: string, sentences: seq<string>, env: Env<A>, disk: Disk<A>): (d: Disk<A>)
    ensures WorkDir(base) in d.dirs
    ensures WorkDir(base) in disk.dirs ==> disk.dirs[WorkDir(base)].Keys <= d.dirs[WorkDir(base)].Keys
    ensures d.dirs - {WorkDir(base)} == disk.dirs - {WorkDir(base)}
    ensures d.texts - {ProgressPath(base)} == disk.texts - {ProgressPath(base)}
    ensures d.audio == disk.audio
  {
    var dir := WorkDir(base);
    var entries := if dir in disk.dirs then disk.dirs[dir] else map[];
    var run := Run(base, sentences, env, disk);
    var written := WriteSegments(entries, run.attempted[..|run.paths|], env.synth);
    var texts := if run.saved.Some? then disk.texts[ProgressPath(base) := run.saved.value] else disk.texts;
    UpdateElsewhere(disk.dirs, dir, written);
    UpdateElsewhere(disk.texts, ProgressPath(base), if run.saved.Some? then run.saved.value else "");
    Disk(texts, disk.audio, disk.dirs[dir := written])
  }

  /** Writing one key leaves the rest of a map as it was. */
  lemma UpdateElsewhere<K, V>(m: map<K, V>, key: K, v: V)
    ensures m[key := v] - {key} == m - {key}
  {
  }

  /** No name is both a file and a directory. */
  predicate FilesApartFromDirs<A>(disk: Disk<A>) {
    disk.audio.Keys !! disk.dirs.Keys && disk.texts.Keys !! disk.dirs.Keys
  }

  /**
    Line 157: merge the directory into `<base>.wav`; nothing else changes. A
    failed export leaves `<base>.wav` damaged: pydub opens the file for
    writing before it writes the audio. When a directory already has the name
    `<base>.wav`, that open raises, line 126 catches it, and nothing is written.
   */
  function MergeStep<A>(base: string, env: Env<A>, disk: Disk<A>): (d: Disk<A>)
    requires WorkDir(base) in disk.dirs
    ensures d.dirs == disk.dirs && d.texts == disk.texts
    ensures d.audio - {OutputPath(base)} == disk.audio - {OutputPath(base)}
    ensures OutputPath(base) in disk.dirs ==> d == disk
    ensures FilesApartFromDirs(disk) ==> FilesApartFromDirs(d)
  {
    var dir := WorkDir(base);
    var entries := disk.dirs[dir];
    if OutputPath(base) in disk.dirs then disk
    else
      match MergeDirectory(env.listdir(entries.Keys), dir, LoadAudio(EntriesByPath(dir, entries)), env.exportOk)
      case NotWritten => disk
      case Written(audio) =>
        UpdateElsewhere(disk.audio, OutputPath(base), Wav(audio));
        disk.(audio := disk.audio[OutputPath(base) := Wav(audio)])
      case ExportFailed =>
        UpdateElsewhere(disk.audio, OutputPath(base), Damaged);
        disk.(audio := disk.audio[OutputPath(base) := Damaged])
  }

  /**
    Lines 160-167: remove every listed entry, then the directory, then the
    progress file if it exists. `os.rmdir` raises when an entry is left: the
    directory keeps what is left and the progress file stays. `os.listdir`
    names only entries that exist, each once, so every `os.remove` of the
    loop finds its file; a listing that names anything else is outside what
    `listdir` can return, and the model simply skips such a name.
   */
  function Cleanup<A>(base: string, env: Env<A>, disk: Disk<A>): (d: Disk<A>)
    requires WorkDir(base) in disk.dirs
    ensures d.audio == disk.audio
    ensures ListsExactly(env, disk.dirs[WorkDir(base)].Keys) ==>
      d.dirs == disk.dirs - {WorkDir(base)} && d.texts == disk.texts - {ProgressPath(base)}
    ensures !(disk.dirs[WorkDir(base)].Keys <= Elems(env.listdir(disk.dirs[WorkDir(base)].Keys))) ==>
      WorkDir(base) in d.dirs && d.texts == disk.texts
    ensures d.dirs.Keys <= disk.dirs.Keys && d.texts.Keys <= disk.texts.Keys
    ensures d.dirs - {WorkDir(base)} == disk.dirs - {WorkDir(base)}
    ensures d.texts - {ProgressPath(base)} == disk.texts - {ProgressPath(base)}
    ensures WorkDir(base) !in d.dirs ==> ProgressPath(base) !in d.texts
  {
    var dir := WorkDir(base);
    var listed := Elems(env.listdir(disk.dirs[dir].Keys));
    var left := disk.dirs[dir] - listed;
    assert left.Keys == disk.dirs[dir].Keys - listed;
    if left != map[] then disk.(dirs := disk.dirs[dir := left])
    else
      assert disk.dirs[dir].Keys <= listed by {
        forall n | n in disk.dirs[dir].Keys
          ensures n in listed
        {
          assert n !in left.Keys;
        }
      }
      Disk(disk.texts - {ProgressPath(base)}, disk.audio, disk.dirs - {dir})
  }

  /** The body of `process_document` once the base name `base` is derived. */
  function Process<A>(base: string, sentences: seq<string>, env: Env<A>, disk: Disk<A>): (d: Disk<A>)
    ensures d.dirs - {WorkDir(base)} == disk.dirs - {WorkDir(base)}
    ensures d.texts - {ProgressPath(base)} == disk.texts - {ProgressPath(base)}
    ensures d.audio - {OutputPath(base)} == disk.audio - {OutputPath(base)}
    ensures WorkDir(base) !in d.dirs ==> ProgressPath(base) !in d.texts
  {
    var synthesized := Synthesize(base, sentences, env, disk);
    Cleanup(base, env, MergeStep(base, env, synthesized))
  }

  /**
    When `os.listdir` lists every entry, processing a document leaves no
    working directory and no progress file behind, however far synthesis got;
    apart from its output `<base>.wav`, nothing else on the disk changes.
   */
  lemma ProcessCleansUp<A>(base: string, sentences: seq<string>, env: Env<A>, disk: Disk<A>)
    requires forall names :: ListsExactly(env, names)
    ensures var r := Process(base, sentences, env, disk);
      && r.dirs == disk.dirs - {WorkDir(base)}
      && r.texts == disk.texts - {ProgressPath(base)}
      && r.audio - {OutputPath(base)} == disk.audio - {OutputPath(base)}
  {
    var synthesized := Synthesize(base, sentences, env, disk);
    var merged := MergeStep(base, env, synthesized);
    assert ListsExactly(env, merged.dirs[WorkDir(base)].Keys);
    var r := Cleanup(base, env, merged);
    assert r.dirs == synthesized.dirs - {WorkDir(base)};
    assert r.texts == synthesized.texts - {ProgressPath(base)};
  }

  /**
    Processing keeps files and directories apart, provided the names it
    creates are free: `os.makedirs` at line 142 and the progress file's open
    would raise if a name of the other kind were in the way.
   */
  lemma ProcessKeepsFilesApart<A>(base: string, sentences: seq<string>, env: Env<A>, disk: Disk<A>)
    requires FilesApartFromDirs(disk)
    requires WorkDir(base) !in disk.audio && WorkDir(base) !in disk.texts && ProgressPath(base) !in disk.dirs
    ensures FilesApartFromDirs(Process(base, sentences, env, disk))
  {
    var synthesized := Synthesize(base, sentences, env, disk);
    assert synthesized.dirs.Keys == disk.dirs.Keys + {WorkDir(base)};
    assert synthesized.texts.Keys <= disk.texts.Keys + {ProgressPath(base)};
    assert FilesApartFromDirs(synthesized);
  }

  /**
    The segments the merge sees: an entry an earlier, interrupted run left in
    the working directory stays there, unchanged unless this run rewrote its
    chunk, and every segment this run returns is there with the audio its
    synthesis produced.
   */
  lemma SegmentsAtMerge<A>(base: string, sentences: seq<string>, env: Env<A>, disk: Disk<A>, i: nat)
    ensures var dir := WorkDir(base);
      var entries := Synthesize(base, sentences, env, disk).dirs[dir];
      var returned := SegmentPath(dir, i) in Run(base, sentences, env, disk).paths;
      && (dir in disk.dirs && SegmentName(i) in disk.dirs[dir] ==>
            SegmentName(i) in entries && (!returned ==> entries[SegmentName(i)] == disk.dirs[dir][SegmentName(i)]))
      && (returned ==> env.synth(i).Some? && SegmentName(i) in entries && entries[SegmentName(i)] == Wav(env.synth(i).value))
  {
    var dir := WorkDir(base);
    var run := Run(base, sentences, env, disk);
    var old_entries := if dir in disk.dirs then disk.dirs[dir] else map[];
    var done := run.attempted[..|run.paths|];
    assert Synthesize(base, sentences, env, disk).dirs[dir] == WriteSegments(old_entries, done, env.synth);
    var saved := if ProgressPath(base) in disk.texts then Some(disk.texts[ProgressPath(base)]) else None;
    var ok := (j: nat) => env.synth(j).Some?;
    assert run == GenerateSpeech(FileNameKey, DocumentChunks(sentences, env), dir, Progress.LoadKeys(saved), saved, ok);
    GenerateSpeechOutcome(FileNameKey, DocumentChunks(sentences, env), dir, Progress.LoadKeys(saved), saved, ok);
    DoneSegments(run.paths, run.attempted, dir, env.synth, i);
  }

  /** A run's successes write the segments it returns and touch no other chunk's segment. */
  lemma DoneSegments<A>(paths: seq<string>, attempted: seq<nat>, dir: string, synth: nat -> Option<seq<A>>, i: nat)
    requires PathsOfSuccesses(paths, attempted, dir, (j: nat) => synth(j).Some?)
    ensures var done := attempted[..|paths|];
      && (SegmentPath(dir, i) in paths ==> exists k :: 0 <= k < |done| && done[k] == i && synth(done[k]).Some?)
      && (SegmentPath(dir, i) !in paths ==> Untouched(SegmentName(i), done, synth))
  {
    var done := attempted[..|paths|];
    if SegmentPath(dir, i) in paths {
      var k :| 0 <= k < |paths| && paths[k] == SegmentPath(dir, i);
      JoinPathInjective(dir, SegmentName(attempted[k]), SegmentName(i));
      SegmentNameInjective(attempted[k], i);
      assert done[k] == i;
    } else {
      forall k | 0 <= k < |done| && synth(done[k]).Some?
        ensures SegmentName(done[k]) != SegmentName(i)
      {
        if SegmentName(done[k]) == SegmentName(i) {
          SegmentNameInjective(done[k], i);
        }
      }
    }
  }

  /**
    With a complete listing, segments left by an earlier run and this run's
    segments are all part of the merge input: unlike tts_v2.py, the merge
    covers every chunk synthesised so far.
   */
  lemma EarlierSegmentsMerged<A>(base: string, sentences: seq<string>, env: Env<A>, disk: Disk<A>, i: nat)
    requires forall names :: ListsExactly(env, names)
    ensures var dir := WorkDir(base);
      var entries := Synthesize(base, sentences, env, disk).dirs[dir];
      && (dir in disk.dirs && SegmentName(i) in disk.dirs[dir] ==> SegmentName(i) in WavNames(env.listdir(entries.Keys)))
      && (SegmentPath(dir, i) in Run(base, sentences, env, disk).paths ==> SegmentName(i) in WavNames(env.listdir(entries.Keys)))
  {
    var entries := Synthesize(base, sentences, env, disk).dirs[WorkDir(base)];
    SegmentsAtMerge(base, sentences, env, disk, i);
    assert ListsExactly(env, entries.Keys);
  }

  /**
    The merge reads the working directory's `.wav` entries in `os.listdir`
    order. Nothing is written when there is none or the first does not decode.
    Otherwise `<base>.wav` is the first followed by every later entry that
    decodes, in listing order, the others being skipped; when the export fails
    it is left damaged. A directory named `<base>.wav` blocks the write.
   */
  lemma MergeStepOutcome<A>(base: string, env: Env<A>, disk: Disk<A>)
    requires WorkDir(base) in disk.dirs
    ensures var entries := disk.dirs[WorkDir(base)];
      var names := WavNames(env.listdir(entries.Keys));
      var load := LoadAudio(entries);
      var r := MergeStep(base, env, disk);
      && (names == [] || load(names[0]).None? || OutputPath(base) in disk.dirs ==> r == disk)
      && (names != [] && load(names[0]).Some? && OutputPath(base) !in disk.dirs ==>
            var audio := load(names[0]).value + Flatten(Readable(names[1..], load));
            r == disk.(audio := disk.audio[OutputPath(base) := if env.exportOk(audio) then Wav(audio) else Damaged]))
  {
    var dir := WorkDir(base);
    var entries := disk.dirs[dir];
    var names := WavNames(env.listdir(entries.Keys));
    if names != [] && OutputPath(base) !in disk.dirs {
      assert InDirectory(dir, names)[1..] == InDirectory(dir, names[1..]);
      ReadableInDirectory(dir, entries, names[1..]);
    }
  }

  /** The progress file, if there is one, holds keys that survive a save and a load. */
  ghost predicate StoredKeys<A>(base: string, disk: Disk<A>) {
    ProgressPath(base) in disk.texts ==>
      var keys := Progress.LoadKeys(Some(disk.texts[ProgressPath(base)]));
      forall k :: 0 <= k < |keys| ==> Progress.StorableKey(keys[k])
  }

  /**
    As written, a caught synthesis failure still leads to the merge and the
    clean-up, and the clean-up deletes the progress file: the next run starts
    again from chunk 0, however many chunks had already succeeded.
   */
  lemma FailedRunForgetsProgress<A>(base: string, sentences: seq<string>, env: Env<A>, env2: Env<A>, disk: Disk<A>)
    requires forall names :: ListsExactly(env, names)
    requires sentences != []
    ensures ProgressPath(base) !in Process(base, sentences, env, disk).texts
    ensures var next := Run(base, sentences, env2, Process(base, sentences, env, disk));
      |next.attempted| > 0 && next.attempted[0] == 0
  {
    var d := Process(base, sentences, env, disk);
    ProcessCleansUp(base, sentences, env, disk);
    assert ProgressPath(base) !in d.texts;
    var chunks := DocumentChunks(sentences, env2);
    var ok := (j: nat) => env2.synth(j).Some?;
    assert chunks != [] by {
      var budget := Chunker.Budget(Chunker.ThreadedMaxChars, Chunker.ThreadedMaxTokens, env2.tok);
      Chunker.GroupsArePacking(sentences, budget);
      assert Flatten(Chunker.Groups(sentences, budget)) == sentences;
    }
    assert Run(base, sentences, env2, d) == GenerateSpeech(FileNameKey, chunks, WorkDir(base), [], None, ok);
    FreshRunStartsAtZero(FileNameKey, chunks, WorkDir(base), ok);
  }

  /**
    `process_document` as its progress file intends: when a chunk's synthesis
    fails, the segments and the progress file are kept for the next run, and
    the merge and the clean-up wait until no chunk has failed.
   */
  function ProcessKeepingProgress<A>(base: string, sentences: seq<string>, env: Env<A>, disk: Disk<A>): Disk<A> {
    var run := Run(base, sentences, env, disk);
    if |run.paths| < |run.attempted| then Synthesize(base, sentences, env, disk)
    else Process(base, sentences, env, disk)
  }

  /**
    With the progress kept, the next run, whatever its synthesis does, starts
    with the chunk this run failed on, and chunks that succeeded are not
    synthesised again.
   */
  lemma KeptProgressRetriesFailedChunk<A>(base: string, sentences: seq<string>, env: Env<A>, env2: Env<A>, disk: Disk<A>)
    requires env2.tok == env.tok
    requires StoredKeys(base, disk)
    ensures var run := Run(base, sentences, env, disk);
      var next := Run(base, sentences, env2, ProcessKeepingProgress(base, sentences, env, disk));
      |run.paths| < |run.attempted| ==>
        && |next.attempted| > 0 && next.attempted[0] == run.attempted[|run.paths|]
        && forall j: nat :: j in run.attempted[..|run.paths|] ==> j !in next.attempted
  {
    var run := Run(base, sentences, env, disk);
    if |run.paths| < |run.attempted| {
      var dir := WorkDir(base);
      var chunks := DocumentChunks(sentences, env);
      assert DocumentChunks(sentences, env2) == chunks;
      var saved := if ProgressPath(base) in disk.texts then Some(disk.texts[ProgressPath(base)]) else None;
      var ok1 := (j: nat) => env.synth(j).Some?;
      var ok2 := (j: nat) => env2.synth(j).Some?;
      var initial := Progress.LoadKeys(saved);
      GenerateSpeechOutcome(FileNameKey, chunks, dir, initial, saved, ok1);
      SavedKeysReload(FileNameKey, chunks, dir, saved, ok1);
      var d := Synthesize(base, sentences, env, disk);
      var saved2 := if ProgressPath(base) in d.texts then Some(d.texts[ProgressPath(base)]) else None;
      assert saved2 == run.saved;
      assert Run(base, sentences, env2, d) == GenerateSpeech(FileNameKey, chunks, dir, run.completed, run.saved, ok2);
      ResumeRetriesFailedChunk(FileNameKey, chunks, dir, initial, saved, ok1, ok2);
      ResumeSkipsSucceeded(FileNameKey, chunks, dir, initial, saved, ok1, ok2);
    }
  }
}

=== FILE: driver.dfy ===
/**
  The per-chunk synthesis drivers (`generate_speech`). Synthesis itself is the
  injected outcome `ok(idx)`: whether `tts.tts_to_file` returns normally for
  chunk `idx`. Only the chunk count matters to the drivers.

  - tts_v2.py:76-103 and oldanddiff/tts_v5_thread-broken.py:74-99 skip chunks
    whose key is recorded, try the others in ascending order, record and save
    each success, and stop at the first failure. They differ only in the key:
    `str(idx)` in tts_v2.py, `output_<idx>.wav` in tts_v5.
  - oldanddiff/tts.py:57-73 keeps no progress and carries on after failures.
 */
module Driver {
  import opened Wrappers
  import opened Strings
  import opened Paths
  import Progress

  /** How a finished chunk is recorded in the progress store. */
  datatype KeyStyle =
    | IndexKey     // tts_v2.py:80,97: str(idx)
    | FileNameKey  // oldanddiff/tts_v5_thread-broken.py:77,80,93: output_<idx>.wav

  function ChunkKey(style: KeyStyle, idx: nat): string {
    match style
    case IndexKey => NatToString(idx)
    case FileNameKey => SegmentName(idx)
  }

  /** Keys of distinct chunks differ. */
  lemma ChunkKeyInjective(style: KeyStyle, i: nat, j: nat)
    ensures ChunkKey(style, i) == ChunkKey(style, j) ==> i == j
  {
    if ChunkKey(style, i) == ChunkKey(style, j) {
      if style == IndexKey {
        NatToStringInjective(i, j);
      } else {
        SegmentNameInjective(i, j);
      }
    }
  }

  /** Every chunk key survives a save and load of the progress file. */
  lemma ChunkKeyStorable(style: KeyStyle, i: nat)
    ensures Progress.StorableKey(ChunkKey(style, i))
  {
    var digits := NatToString(i);
    assert ',' !in digits && !IsSpace(digits[0]) && !IsSpace(digits[|digits| - 1]);
    if style == FileNameKey {
      var key := SegmentName(i);
      assert key == "output_" + digits + ".wav";
      assert key[0] == 'o' && key[|key| - 1] == 'v';
    }
  }

  /** The state of the resuming loop: keys recorded, paths returned, indices tried, progress file content. */
  datatype Resume = Resume(completed: seq<string>, paths: seq<string>, attempted: seq<nat>, saved: Option<string>)

  /** The loop of tts_v2.py:78-101 from chunk `i` on. */
  function ResumeFrom(style: KeyStyle, n: nat, dir: string, ok: nat -> bool, i: nat, st: Resume): (r: Resume)
    requires |st.paths| <= |st.attempted|
    ensures |r.paths| <= |r.attempted|
    decreases n - i
  {
    if i >= n then st
    else if ChunkKey(style, i) in st.completed then ResumeFrom(style, n, dir, ok, i + 1, st)
    else if ok(i) then
      var completed := st.completed + [ChunkKey(style, i)];
      ResumeFrom(style, n, dir, ok, i + 1,
                 Resume(completed, st.paths + [SegmentPath(dir, i)], st.attempted + [i], Some(Progress.Save(completed))))
    else
      Resume(st.completed, st.paths, st.attempted + [i], st.saved)
  }

  /**
    `generate_speech(text_chunks, output_dir, completed_chunks[, progress_file])`
    of tts_v2.py and tts_v5: `saved` is the progress file before the call.
   */
  function GenerateSpeech(style: KeyStyle, chunks: seq<string>, dir: string, completed: seq<string>,
                          saved: Option<string>, ok: nat -> bool): (r: Resume)
    ensures |r.paths| <= |r.attempted|
  {
    ResumeFrom(style, |chunks|, dir, ok, 0, Resume(completed, [], [], saved))
  }

  /** Chunk `i` exists and its key was not recorded when the run started. */
  predicate Pending(style: KeyStyle, n: nat, completed: seq<string>, i: nat) {
    i < n && ChunkKey(style, i) !in completed
  }

  /** Every pending chunk before `i` is synthesised successfully, so the run gets as far as `i`. */
  ghost predicate Reaches(style: KeyStyle, n: nat, completed: seq<string>, ok: nat -> bool, i: nat) {
    forall m: nat :: m < i && Pending(style, n, completed, m) ==> ok(m)
  }

  ghost predicate Increasing(xs: seq<nat>) {
    forall a, b :: 0 <= a < b < |xs| ==> xs[a] < xs[b]
  }

  /** The first `count` attempted chunks succeeded and their segment paths are `paths`, in order. */
  ghost predicate PathsOfSuccesses(paths: seq<string>, attempted: seq<nat>, dir: string, ok: nat -> bool) {
    && |paths| <= |attempted|
    && (forall k :: 0 <= k < |paths| ==> ok(attempted[k]) && paths[k] == SegmentPath(dir, attempted[k]))
  }

  /** `completed` is the starting keys followed by the key of each of the first `count` attempted chunks. */
  ghost predicate RecordsSuccesses(completed: seq<string>, initial: seq<string>, attempted: seq<nat>, count: nat, style: KeyStyle) {
    && count <= |attempted|
    && |completed| == |initial| + count
    && completed[..|initial|] == initial
    && (forall k :: 0 <= k < count ==> completed[|initial| + k] == ChunkKey(style, attempted[k]))
  }

  /** The loop state before chunk `i`, while no synthesis has failed. */
  ghost predicate Running(style: KeyStyle, n: nat, dir: string, ok: nat -> bool, initial: seq<string>,
                          saved: Option<string>, i: nat, st: Resume) {
    && i <= n
    && (forall j: nat :: j in st.attempted <==> j < i && Pending(style, n, initial, j))
    && Reaches(style, n, initial, ok, i)
    && Increasing(st.attempted)
    && (forall j :: j in st.attempted ==> j < i)
    && |st.paths| == |st.attempted|
    && PathsOfSuccesses(st.paths, st.attempted, dir, ok)
    && RecordsSuccesses(st.completed, initial, st.attempted, |st.paths|, style)
    && st.saved == (if |st.paths| == 0 then saved else Some(Progress.Save(st.completed)))
  }

  /** What a resuming run returns, as the source's comments and control flow promise. */
  ghost predicate ResumeOutcome(style: KeyStyle, n: nat, dir: string, ok: nat -> bool, initial: seq<string>,
                                saved: Option<string>, r: Resume) {
    && (forall j: nat :: j in r.attempted <==> Pending(style, n, initial, j) && Reaches(style, n, initial, ok, j))
    && Increasing(r.attempted)
    && PathsOfSuccesses(r.paths, r.attempted, dir, ok)
    && (|r.paths| < |r.attempted| ==> |r.paths| == |r.attempted| - 1 && !ok(r.attempted[|r.paths|]))
    && RecordsSuccesses(r.completed, initial, r.attempted, |r.paths|, style)
    && r.saved == (if |r.paths| == 0 then saved else Some(Progress.Save(r.completed)))
  }

  /** A key recorded during the run belongs to a chunk before `i`, so the skip test sees only the starting keys. */
  lemma RecordedKeyIsInitial(style: KeyStyle, n: nat, dir: string, ok: nat -> bool, initial: seq<string>,
                             saved: Option<string>, i: nat, st: Resume)
    requires Running(style, n, dir, ok, initial, saved, i, st)
    ensures ChunkKey(style, i) in st.completed <==> ChunkKey(style, i) in initial
  {
    assert st.completed == initial + st.completed[|initial|..];
    if ChunkKey(style, i) in st.completed[|initial|..] {
      var k :| 0 <= k < |st.completed| - |initial| && st.completed[|initial|..][k] == ChunkKey(style, i);
      assert st.completed[|initial| + k] == ChunkKey(style, st.attempted[k]);
      var a := st.attempted[k];
      assert a in st.attempted;
      ChunkKeyInjective(style, a, i);
      assert false;
    }
  }

  /** A chunk whose key was recorded before the run is skipped, and the loop goes on. */
  lemma RunningAfterSkip(style: KeyStyle, n: nat, dir: string, ok: nat -> bool, initial: seq<string>,
                         saved: Option<string>, i: nat, st: Resume)
    requires Running(style, n, dir, ok, initial, saved, i, st)
    requires i < n && ChunkKey(style, i) in initial
    ensures Running(style, n, dir, ok, initial, saved, i + 1, st)
  {
  }

  /** A successful chunk is recorded, saved and returned, and the loop goes on. */
  lemma RunningAfterSuccess(style: KeyStyle, n: nat, dir: string, ok: nat -> bool, initial: seq<string>,
                            saved: Option<string>, i: nat, st: Resume)
    requires Running(style, n, dir, ok, initial, saved, i, st)
    requires i < n && ChunkKey(style, i) !in initial && ok(i)
    ensures var completed := st.completed + [ChunkKey(style, i)];
      Running(style, n, dir, ok, initial, saved, i + 1,
              Resume(completed, st.paths + [SegmentPath(dir, i)], st.attempted + [i], Some(Progress.Save(completed))))
  {
    var completed := st.completed + [ChunkKey(style, i)];
    var next := Resume(completed, st.paths + [SegmentPath(dir, i)], st.attempted + [i], Some(Progress.Save(completed)));
    AppendIncreasing(st.attempted, i);
    RecordsStep(st.completed, initial, st.attempted, style, i);
    PathsStep(st.paths, st.attempted, dir, ok, i);
    assert forall j: nat :: j in next.attempted <==> j < i + 1 && Pending(style, n, initial, j);
    assert Reaches(style, n, initial, ok, i + 1);
  }

  /** Recording the key of a successful chunk keeps the record of successes. */
  lemma RecordsStep(completed: seq<string>, initial: seq<string>, attempted: seq<nat>, style: KeyStyle, i: nat)
    requires RecordsSuccesses(completed, initial, attempted, |attempted|, style)
    ensures RecordsSuccesses(completed + [ChunkKey(style, i)], initial, attempted + [i], |attempted| + 1, style)
  {
    assert (completed + [ChunkKey(style, i)])[..|initial|] == completed[..|initial|];
  }

  /** Returning the segment of a successful chunk keeps the paths those of successes. */
  lemma PathsStep(paths: seq<string>, attempted: seq<nat>, dir: string, ok: nat -> bool, i: nat)
    requires PathsOfSuccesses(paths, attempted, dir, ok) && |paths| == |attempted| && ok(i)
    ensures PathsOfSuccesses(paths + [SegmentPath(dir, i)], attempted + [i], dir, ok)
  {
  }

  /** Appending an index above all others keeps a sequence increasing. */
  lemma AppendIncreasing(xs: seq<nat>, i: nat)
    requires Increasing(xs)
    requires forall j :: j in xs ==> j < i
    ensures Increasing(xs + [i])
  {
    forall a, b | 0 <= a < b < |xs| + 1
      ensures (xs + [i])[a] < (xs + [i])[b]
    {
      if b == |xs| {
        assert xs[a] in xs;
      }
    }
  }

  /** A failed chunk is the last one tried: the loop ends with the outcome. */
  lemma OutcomeAfterFailure(style: KeyStyle, n: nat, dir: string, ok: nat -> bool, initial: seq<string>,
                            saved: Option<string>, i: nat, st: Resume)
    requires Running(style, n, dir, ok, initial, saved, i, st)
    requires i < n && ChunkKey(style, i) !in initial && !ok(i)
    ensures ResumeOutcome(style, n, dir, ok, initial, saved, Resume(st.completed, st.paths, st.attempted + [i], st.saved))
  {
    var r := Resume(st.completed, st.paths, st.attempted + [i], st.saved);
    AppendIncreasing(st.attempted, i);
    forall j: nat
      ensures j in r.attempted <==> Pending(style, n, initial, j) && Reaches(style, n, initial, ok, j)
    {
      if j > i && Pending(style, n, initial, j) {
        assert !Reaches(style, n, initial, ok, j);
      }
    }
  }

  /** Past the last chunk the loop ends with the outcome. */
  lemma OutcomeAtEnd(style: KeyStyle, n: nat, dir: string, ok: nat -> bool, initial: seq<string>,
                     saved: Option<string>, i: nat, st: Resume)
    requires Running(style, n, dir, ok, initial, saved, i, st)
    requires i >= n
    ensures ResumeOutcome(style, n, dir, ok, initial, saved, st)
  {
  }

  lemma {:induction false} ResumeFromOutcome(style: KeyStyle, n: nat, dir: string, ok: nat -> bool,
                                             initial: seq<string>, saved: Option<string>, i: nat, st: Resume)
    requires Running(style, n, dir, ok, initial, saved, i, st)
    ensures ResumeOutcome(style, n, dir, ok, initial, saved, ResumeFrom(style, n, dir, ok, i, st))
    decreases n - i
  {
    if i >= n {
      OutcomeAtEnd(style, n, dir, ok, initial, saved, i, st);
    } else {
      RecordedKeyIsInitial(style, n, dir, ok, initial, saved, i, st);
      if ChunkKey(style, i) in st.completed {
        RunningAfterSkip(style, n, dir, ok, initial, saved, i, st);
        ResumeFromOutcome(style, n, dir, ok, initial, saved, i + 1, st);
      } else if ok(i) {
        RunningAfterSuccess(style, n, dir, ok, initial, saved, i, st);
        var completed := st.completed + [ChunkKey(style, i)];
        ResumeFromOutcome(style, n, dir, ok, initial, saved, i + 1,
                          Resume(completed, st.paths + [SegmentPath(dir, i)], st.attempted + [i], Some(Progress.Save(completed))));
      } else {
        OutcomeAfterFailure(style, n, dir, ok, initial, saved, i, st);
      }
    }
  }

  /**
    The resuming driver of tts_v2.py and tts_v5: it tries exactly the chunks
    whose key was not recorded and that are not preceded by a failed chunk, in
    ascending order, so nothing after the first failure is tried; it returns
    the segment paths of this run's successes only; it records exactly their
    keys, after the keys it started from; and the progress file is rewritten
    after every success, so it ends up holding the final keys (or is left as it
    was when nothing succeeded).
   */
  lemma GenerateSpeechOutcome(style: KeyStyle, chunks: seq<string>, dir: string, completed: seq<string>,
                              saved: Option<string>, ok: nat -> bool)
    ensures ResumeOutcome(style, |chunks|, dir, ok, completed, saved, GenerateSpeech(style, chunks, dir, completed, saved, ok))
  {
    ResumeFromOutcome(style, |chunks|, dir, ok, completed, saved, 0, Resume(completed, [], [], saved));
  }

  /** The keys a run records are storable when the keys it started from are. */
  lemma RecordedKeysStorable(style: KeyStyle, chunks: seq<string>, dir: string, completed: seq<string>,
                             saved: Option<string>, ok: nat -> bool)
    requires forall k :: 0 <= k < |completed| ==> Progress.StorableKey(completed[k])
    ensures var r := GenerateSpeech(style, chunks, dir, completed, saved, ok);
      forall k :: 0 <= k < |r.completed| ==> Progress.StorableKey(r.completed[k])
  {
    var r := GenerateSpeech(style, chunks, dir, completed, saved, ok);
    GenerateSpeechOutcome(style, chunks, dir, completed, saved, ok);
    forall k | 0 <= k < |r.completed|
      ensures Progress.StorableKey(r.completed[k])
    {
      if k < |completed| {
        assert r.completed[k] == r.completed[..|completed|][k];
      } else {
        ChunkKeyStorable(style, r.attempted[k - |completed|]);
      }
    }
  }

  /**
    After every run the progress file loads as the set of recorded keys,
    provided the keys the run started from were storable.
   */
  lemma SavedProgressMatchesCompleted(style: KeyStyle, chunks: seq<string>, dir: string, completed: seq<string>,
                                      saved: Option<string>, ok: nat -> bool)
    requires forall k :: 0 <= k < |completed| ==> Progress.StorableKey(completed[k])
    requires saved.Some? ==> Progress.Load(saved) == Elems(completed)
    ensures var r := GenerateSpeech(style, chunks, dir, completed, saved, ok);
      (saved.Some? || |r.paths| > 0) ==> Progress.Load(r.saved) == Elems(r.completed)
  {
    var r := GenerateSpeech(style, chunks, dir, completed, saved, ok);
    GenerateSpeechOutcome(style, chunks, dir, completed, saved, ok);
    if |r.paths| > 0 {
      RecordedKeysStorable(style, chunks, dir, completed, saved, ok);
      Progress.LoadAfterSave(r.completed);
    } else {
      assert r.completed == r.completed[..|completed|];
    }
  }

  /**
    A run started from the keys loaded from the progress file leaves a file
    that loads as exactly the keys it recorded, in order, provided the loaded
    keys were storable: a later call reading that file starts where this
    run's recorded keys left off.
   */
  lemma SavedKeysReload(style: KeyStyle, chunks: seq<string>, dir: string, saved: Option<string>, ok: nat -> bool)
    requires forall k :: 0 <= k < |Progress.LoadKeys(saved)| ==> Progress.StorableKey(Progress.LoadKeys(saved)[k])
    ensures var r := GenerateSpeech(style, chunks, dir, Progress.LoadKeys(saved), saved, ok);
      Progress.LoadKeys(r.saved) == r.completed
  {
    var completed := Progress.LoadKeys(saved);
    var r := GenerateSpeech(style, chunks, dir, completed, saved, ok);
    GenerateSpeechOutcome(style, chunks, dir, completed, saved, ok);
    if |r.paths| > 0 {
      RecordedKeysStorable(style, chunks, dir, completed, saved, ok);
      Progress.LoadAfterSave(r.completed);
    } else {
      assert r.completed == r.completed[..|completed|];
    }
  }

  /** The keys recorded after a run: the starting keys and those of this run's successes. */
  lemma RecordedKeys(style: KeyStyle, chunks: seq<string>, dir: string, completed: seq<string>,
                     saved: Option<string>, ok: nat -> bool, j: nat)
    ensures var r := GenerateSpeech(style, chunks, dir, completed, saved, ok);
      ChunkKey(style, j) in r.completed <==> ChunkKey(style, j) in completed || j in r.attempted[..|r.paths|]
  {
    var r := GenerateSpeech(style, chunks, dir, completed, saved, ok);
    GenerateSpeechOutcome(style, chunks, dir, completed, saved, ok);
    RecordedKeyOf(r.completed, completed, r.attempted, |r.paths|, style, j);
  }

  /** A key is recorded exactly when it was a starting key or belongs to one of the first `count` chunks tried. */
  lemma RecordedKeyOf(completed: seq<string>, initial: seq<string>, attempted: seq<nat>, count: nat, style: KeyStyle, j: nat)
    requires RecordsSuccesses(completed, initial, attempted, count, style)
    ensures ChunkKey(style, j) in completed <==> ChunkKey(style, j) in initial || j in attempted[..count]
  {
    var c := |initial|;
    assert completed == initial + completed[c..];
    var recorded := completed[c..];
    if ChunkKey(style, j) in recorded {
      var k :| 0 <= k < |recorded| && recorded[k] == ChunkKey(style, j);
      assert completed[c + k] == ChunkKey(style, attempted[k]);
      ChunkKeyInjective(style, attempted[k], j);
      assert attempted[..count][k] == j;
    }
    if j in attempted[..count] {
      var k :| 0 <= k < count && attempted[..count][k] == j;
      assert completed[c + k] == ChunkKey(style, j);
    }
  }

  /** Resumability: the next run from the recorded keys tries nothing that succeeded before. */
  lemma ResumeSkipsSucceeded(style: KeyStyle, chunks: seq<string>, dir: string, completed: seq<string>,
                             saved: Option<string>, ok1: nat -> bool, ok2: nat -> bool)
    ensures var first := GenerateSpeech(style, chunks, dir, completed, saved, ok1);
      var second := GenerateSpeech(style, chunks, dir, first.completed, first.saved, ok2);
      forall j: nat :: j in first.attempted[..|first.paths|] ==> j !in second.attempted
  {
    var first := GenerateSpeech(style, chunks, dir, completed, saved, ok1);
    var second := GenerateSpeech(style, chunks, dir, first.completed, first.saved, ok2);
    GenerateSpeechOutcome(style, chunks, dir, first.completed, first.saved, ok2);
    forall j: nat | j in first.attempted[..|first.paths|]
      ensures j !in second.attempted
    {
      RecordedKeys(style, chunks, dir, completed, saved, ok1, j);
    }
  }

  /** The chunk a run failed on is pending again for the next run. */
  lemma FailedChunkPendingAgain(style: KeyStyle, chunks: seq<string>, dir: string, completed: seq<string>,
                                saved: Option<string>, ok1: nat -> bool)
    ensures var first := GenerateSpeech(style, chunks, dir, completed, saved, ok1);
      |first.paths| < |first.attempted| ==> Pending(style, |chunks|, first.completed, first.attempted[|first.paths|])
  {
    var first := GenerateSpeech(style, chunks, dir, completed, saved, ok1);
    if |first.paths| < |first.attempted| {
      GenerateSpeechOutcome(style, chunks, dir, completed, saved, ok1);
      var done := first.attempted[..|first.paths|];
      var f := first.attempted[|first.paths|];
      assert f in first.attempted;
      RecordedKeys(style, chunks, dir, completed, saved, ok1, f);
      if f in done {
        assert false;
      }
    }
  }

  /** No chunk before the one a run failed on is pending for the next run. */
  lemma NothingPendingBeforeFailure(style: KeyStyle, chunks: seq<string>, dir: string, completed: seq<string>,
                                    saved: Option<string>, ok1: nat -> bool, m: nat)
    ensures var first := GenerateSpeech(style, chunks, dir, completed, saved, ok1);
      |first.paths| < |first.attempted| && m < first.attempted[|first.paths|] ==>
        !Pending(style, |chunks|, first.completed, m)
  {
    var first := GenerateSpeech(style, chunks, dir, completed, saved, ok1);
    if |first.paths| < |first.attempted| && m < first.attempted[|first.paths|] && Pending(style, |chunks|, first.completed, m) {
      GenerateSpeechOutcome(style, chunks, dir, completed, saved, ok1);
      var f := first.attempted[|first.paths|];
      assert f in first.attempted;
      RecordedKeys(style, chunks, dir, completed, saved, ok1, m);
      assert Pending(style, |chunks|, completed, m);
      assert false;
    }
  }

  /** Resumability: when a run stops at a failed chunk, the next run from the recorded keys starts with it. */
  lemma ResumeRetriesFailedChunk(style: KeyStyle, chunks: seq<string>, dir: string, completed: seq<string>,
                                 saved: Option<string>, ok1: nat -> bool, ok2: nat -> bool)
    ensures var first := GenerateSpeech(style, chunks, dir, completed, saved, ok1);
      var second := GenerateSpeech(style, chunks, dir, first.completed, first.saved, ok2);
      |first.paths| < |first.attempted| ==> |second.attempted| > 0 && second.attempted[0] == first.attempted[|first.paths|]
  {
    var n := |chunks|;
    var first := GenerateSpeech(style, chunks, dir, completed, saved, ok1);
    var second := GenerateSpeech(style, chunks, dir, first.completed, first.saved, ok2);
    if |first.paths| < |first.attempted| {
      var f := first.attempted[|first.paths|];
      FailedChunkPendingAgain(style, chunks, dir, completed, saved, ok1);
      assert Reaches(style, n, first.completed, ok2, f) by {
        forall m: nat | m < f
          ensures !Pending(style, n, first.completed, m)
        {
          NothingPendingBeforeFailure(style, chunks, dir, completed, saved, ok1, m);
        }
      }
      GenerateSpeechOutcome(style, chunks, dir, first.completed, first.saved, ok2);
      assert f in second.attempted;
      var j0 := second.attempted[0];
      assert j0 in second.attempted;
      NothingPendingBeforeFailure(style, chunks, dir, completed, saved, ok1, j0);
    }
  }

  /** A run with no progress file tries chunk 0 first. */
  lemma FreshRunStartsAtZero(style: KeyStyle, chunks: seq<string>, dir: string, ok: nat -> bool)
    requires chunks != []
    ensures var r := GenerateSpeech(style, chunks, dir, [], None, ok);
      |r.attempted| > 0 && r.attempted[0] == 0
  {
    var r := GenerateSpeech(style, chunks, dir, [], None, ok);
    GenerateSpeechOutcome(style, chunks, dir, [], None, ok);
    assert Pending(style, |chunks|, [], 0);
    assert 0 in r.attempted;
  }

  /**
    The merge at tts_v2.py:150 receives only this run's segments: the segment
    of a chunk recorded by an earlier run is never among the returned paths.
   */
  lemma EarlierSegmentsNotReturned(style: KeyStyle, chunks: seq<string>, dir: string, completed: seq<string>,
                                   saved: Option<string>, ok: nat -> bool, i: nat)
    requires ChunkKey(style, i) in completed
    ensures SegmentPath(dir, i) !in GenerateSpeech(style, chunks, dir, completed, saved, ok).paths
  {
    var r := GenerateSpeech(style, chunks, dir, completed, saved, ok);
    GenerateSpeechOutcome(style, chunks, dir, completed, saved, ok);
    if SegmentPath(dir, i) in r.paths {
      var k :| 0 <= k < |r.paths| && r.paths[k] == SegmentPath(dir, i);
      var a := r.attempted[k];
      assert a in r.attempted;
      SegmentPathInjective(dir, a, i);
      assert false;
    }
  }

  /**
    A run interrupted after chunks 0 and 1 is resumed with every synthesis
    succeeding: tts_v2.py then merges chunk 2's segment alone.
   */
  lemma ResumedRunReturnsOnlyNewSegment(dir: string, ok: nat -> bool)
    requires forall i: nat :: ok(i)
    ensures GenerateSpeech(IndexKey, ["A.", "B.", "C."], dir, ["0", "1"], Some("0,1"), ok).paths == [SegmentPath(dir, 2)]
  {
    assert NatToString(0) == "0" && NatToString(1) == "1" && NatToString(2) == "2";
    var completed := ["0", "1"];
    var st := Resume(completed, [], [], Some("0,1"));
    calc {
      GenerateSpeech(IndexKey, ["A.", "B.", "C."], dir, completed, Some("0,1"), ok);
      ResumeFrom(IndexKey, 3, dir, ok, 0, st);
      ResumeFrom(IndexKey, 3, dir, ok, 1, st);
      ResumeFrom(IndexKey, 3, dir, ok, 2, st);
    }
    assert "2" !in completed;
  }

  /** A returned segment path belongs to a chunk whose synthesis succeeded in this run. */
  lemma ReturnedPathsAreSuccesses(style: KeyStyle, chunks: seq<string>, dir: string, completed: seq<string>,
                                  saved: Option<string>, ok: nat -> bool, i: nat)
    ensures var r := GenerateSpeech(style, chunks, dir, completed, saved, ok);
      SegmentPath(dir, i) in r.paths <==> i in r.attempted[..|r.paths|] && ok(i)
  {
    var r := GenerateSpeech(style, chunks, dir, completed, saved, ok);
    GenerateSpeechOutcome(style, chunks, dir, completed, saved, ok);
    if SegmentPath(dir, i) in r.paths {
      var k :| 0 <= k < |r.paths| && r.paths[k] == SegmentPath(dir, i);
      SegmentPathInjective(dir, r.attempted[k], i);
      assert r.attempted[..|r.paths|][k] == i;
    }
    if i in r.attempted[..|r.paths|] {
      var k :| 0 <= k < |r.paths| && r.attempted[..|r.paths|][k] == i;
      assert r.paths[k] == SegmentPath(dir, i);
    }
  }

  /** The state of the non-resuming loop of oldanddiff/tts.py:59-71: indices tried and paths kept. */
  datatype Attempts = Attempts(attempted: seq<nat>, paths: seq<string>)

  function ContinueFrom(n: nat, dir: string, ok: nat -> bool, i: nat, st: Attempts): Attempts
    decreases n - i
  {
    if i >= n then st
    else ContinueFrom(n, dir, ok, i + 1,
                      Attempts(st.attempted + [i], if ok(i) then st.paths + [SegmentPath(dir, i)] else st.paths))
  }

  /**
    `generate_speech(text_chunks, output_dir)` of oldanddiff/tts.py: every
    chunk is tried once, in order, whatever failed before it.
   */
  function GenerateSpeechNoResume(chunks: seq<string>, dir: string, ok: nat -> bool): (r: Attempts)
    ensures |r.attempted| == |chunks| && forall k :: 0 <= k < |r.attempted| ==> r.attempted[k] == k
  {
    ContinueFromOutcome(|chunks|, dir, ok, 0, Attempts([], []));
    ContinueFrom(|chunks|, dir, ok, 0, Attempts([], []))
  }

  /** The successful chunk indices below `n`, ascending: the reference the non-resuming driver is checked against. */
  function Successes(n: nat, ok: nat -> bool): (s: seq<nat>)
    ensures forall j: nat :: j in s <==> j < n && ok(j)
    ensures forall a, b :: 0 <= a < b < |s| ==> s[a] < s[b]
  {
    if n == 0 then []
    else
      var s := Successes(n - 1, ok);
      assert forall a :: 0 <= a < |s| ==> s[a] in s;
      s + (if ok(n - 1) then [n - 1] else [])
  }

  /** The non-resuming loop before chunk `i`: chunks `0..i` tried in order, the successful ones' paths kept. */
  ghost predicate Continuing(dir: string, ok: nat -> bool, i: nat, st: Attempts) {
    && |st.attempted| == i && (forall k :: 0 <= k < i ==> st.attempted[k] == k)
    && |st.paths| == |Successes(i, ok)|
    && (forall k :: 0 <= k < |st.paths| ==> st.paths[k] == SegmentPath(dir, Successes(i, ok)[k]))
  }

  /** One iteration of the non-resuming loop keeps `Continuing`. */
  lemma ContinuingStep(dir: string, ok: nat -> bool, i: nat, st: Attempts)
    requires Continuing(dir, ok, i, st)
    ensures Continuing(dir, ok, i + 1, Attempts(st.attempted + [i], if ok(i) then st.paths + [SegmentPath(dir, i)] else st.paths))
  {
    assert Successes(i + 1, ok) == Successes(i, ok) + (if ok(i) then [i] else []);
  }

  lemma {:induction false} ContinueFromOutcome(n: nat, dir: string, ok: nat -> bool, i: nat, st: Attempts)
    requires i <= n && Continuing(dir, ok, i, st)
    ensures Continuing(dir, ok, n, ContinueFrom(n, dir, ok, i, st))
    decreases n - i
  {
    if i < n {
      ContinuingStep(dir, ok, i, st);
      ContinueFromOutcome(n, dir, ok, i + 1,
                          Attempts(st.attempted + [i], if ok(i) then st.paths + [SegmentPath(dir, i)] else st.paths));
    }
  }

  /**
    The non-resuming driver of oldanddiff/tts.py tries every chunk exactly
    once, in ascending order, and a failure does not stop later chunks: it
    returns the segment paths of exactly the successful chunks, in ascending
    chunk order.
   */
  lemma GenerateSpeechNoResumeOutcome(chunks: seq<string>, dir: string, ok: nat -> bool)
    ensures var r := GenerateSpeechNoResume(chunks, dir, ok);
      && |r.attempted| == |chunks| && (forall k :: 0 <= k < |chunks| ==> r.attempted[k] == k)
      && |r.paths| == |Successes(|chunks|, ok)|
      && (forall k :: 0 <= k < |r.paths| ==> r.paths[k] == SegmentPath(dir, Successes(|chunks|, ok)[k]))
  {
    ContinueFromOutcome(|chunks|, dir, ok, 0, Attempts([], []));
  }

  /** A segment path is returned by the non-resuming driver exactly when its chunk exists and succeeded. */
  lemma NoResumeReturnsExactlySuccesses(chunks: seq<string>, dir: string, ok: nat -> bool, j: nat)
    ensures SegmentPath(dir, j) in GenerateSpeechNoResume(chunks, dir, ok).paths <==> j < |chunks| && ok(j)
  {
    var r := GenerateSpeechNoResume(chunks, dir, ok);
    var s := Successes(|chunks|, ok);
    GenerateSpeechNoResumeOutcome(chunks, dir, ok);
    if SegmentPath(dir, j) in r.paths {
      var k :| 0 <= k < |r.paths| && r.paths[k] == SegmentPath(dir, j);
      SegmentPathInjective(dir, s[k], j);
      assert s[k] in s;
    }
    if j < |chunks| && ok(j) {
      assert j in s;
      var k :| 0 <= k < |s| && s[k] == j;
      assert r.paths[k] == SegmentPath(dir, j);
    }
  }
}

=== FILE: merge.dfy ===
/**
  Concatenating the synthesised segments into one output. Audio is an opaque
  sequence of samples `seq<A>` and `+` is pydub's `AudioSegment` concatenation;
  reading a file with `AudioSegment.from_wav` is the injected `load`, which
  gives `None` when pydub raises.

  - tts_v2.py:105-123 and oldanddiff/tts.py:75-93 merge a list of paths.
  - oldanddiff/tts_v5_thread-broken.py:101-127 merges every `.wav` entry of a
    directory listing, in listing order, and catches a failed export.
  - wav.py:8-22 sorts the `.wav` entries of a folder and concatenates them
    starting from empty audio.
 */
module Merge {
  import opened Wrappers
  import opened Strings
  import opened Paths
  import opened Sorting
  import opened Seqs

  /** The contents of the files of `paths` that can be read, in order: the reference for a skipping merge. */
  function Readable<A>(paths: seq<string>, load: string -> Option<seq<A>>): seq<seq<A>> {
    if paths == [] then []
    else (if load(paths[0]).Some? then [load(paths[0]).value] else []) + Readable(paths[1..], load)
  }

  /** The loop at tts_v2.py:116-121: append each readable file, skip the others. */
  function AppendReadable<A>(combined: seq<A>, rest: seq<string>, load: string -> Option<seq<A>>): seq<A>
    decreases |rest|
  {
    if rest == [] then combined
    else
      var next := match load(rest[0]) case Some(audio) => combined + audio case None => combined;
      AppendReadable(next, rest[1..], load)
  }

  /** The loop appends the readable files of `rest` after what it started with, in order. */
  lemma {:induction false} AppendReadableIsConcat<A>(combined: seq<A>, rest: seq<string>, load: string -> Option<seq<A>>)
    ensures AppendReadable(combined, rest, load) == combined + Flatten(Readable(rest, load))
    decreases |rest|
  {
    if rest != [] {
      var next := match load(rest[0]) case Some(audio) => combined + audio case None => combined;
      AppendReadableIsConcat(next, rest[1..], load);
      var head := if load(rest[0]).Some? then [load(rest[0]).value] else [];
      assert Readable(rest, load) == head + Readable(rest[1..], load);
      if load(rest[0]).Some? {
        assert Flatten(Readable(rest, load)) == load(rest[0]).value + Flatten(Readable(rest[1..], load));
      } else {
        assert Readable(rest, load) == Readable(rest[1..], load);
      }
    }
  }

  /**
    `merge_audio_files(file_paths, output_file)` of tts_v2.py and
    oldanddiff/tts.py: the audio exported, or `None` when nothing is exported.
    An empty list exports nothing; an unreadable first file exports nothing;
    otherwise the export is the first file followed by every later readable
    file in list order, unreadable later files being skipped.
   */
  function MergeFiles<A>(paths: seq<string>, load: string -> Option<seq<A>>): (r: Option<seq<A>>)
    ensures r.None? <==> paths == [] || load(paths[0]).None?
    ensures r.Some? ==> r.value == load(paths[0]).value + Flatten(Readable(paths[1..], load))
  {
    if paths == [] then None
    else match load(paths[0])
      case None => None
      case Some(first) =>
        AppendReadableIsConcat(first, paths[1..], load);
        Some(AppendReadable(first, paths[1..], load))
  }

  /** When every file reads, the export is all of them concatenated in list order. */
  lemma MergeAllReadable<A>(paths: seq<string>, load: string -> Option<seq<A>>)
    requires paths != []
    requires AllRead(paths, load)
    ensures MergeFiles(paths, load) == Some(Flatten(Loaded(paths, load)))
  {
    ReadableAll(paths[1..], load);
    assert Loaded(paths, load) == [load(paths[0]).value] + Loaded(paths[1..], load);
  }

  /** The contents of every file of `paths`, which must all read. */
  function Loaded<A>(paths: seq<string>, load: string -> Option<seq<A>>): (clips: seq<seq<A>>)
    requires AllRead(paths, load)
    ensures |clips| == |paths|
    ensures forall k :: 0 <= k < |paths| ==> Some(clips[k]) == load(paths[k])
  {
    seq(|paths|, k requires 0 <= k < |paths| => load(paths[k]).value)
  }

  lemma {:induction false} ReadableAll<A>(paths: seq<string>, load: string -> Option<seq<A>>)
    requires AllRead(paths, load)
    ensures Readable(paths, load) == Loaded(paths, load)
    decreases |paths|
  {
    if paths != [] {
      ReadableAll(paths[1..], load);
      assert Loaded(paths, load) == [load(paths[0]).value] + Loaded(paths[1..], load);
    }
  }

  const WavExtension := ".wav"

  /** `[f for f in names if f.endswith('.wav')]`. */
  function WavNames(names: seq<string>): (r: seq<string>)
    ensures |r| <= |names|
    ensures forall f :: f in r <==> f in names && EndsWith(f, WavExtension)
  {
    if names == [] then []
    else (if EndsWith(names[0], WavExtension) then [names[0]] else []) + WavNames(names[1..])
  }

  /** The filter keeps listing order: it distributes over concatenation of listings. */
  lemma {:induction false} WavNamesAppend(a: seq<string>, b: seq<string>)
    ensures WavNames(a + b) == WavNames(a) + WavNames(b)
    decreases |a|
  {
    if a == [] {
      assert a + b == b;
    } else {
      assert (a + b)[0] == a[0];
      assert (a + b)[1..] == a[1..] + b;
      WavNamesAppend(a[1..], b);
    }
  }

  /** A listing of `.wav` names only passes the filter unchanged: nothing is reordered. */
  lemma {:induction false} WavNamesAllWav(names: seq<string>)
    requires forall k :: 0 <= k < |names| ==> EndsWith(names[k], WavExtension)
    ensures WavNames(names) == names
    decreases |names|
  {
    if names != [] {
      WavNamesAllWav(names[1..]);
    }
  }

  /** `[os.path.join(output_dir, f) for f in names]`. */
  function InDirectory(dir: string, names: seq<string>): (paths: seq<string>)
    ensures |paths| == |names|
    ensures forall k :: 0 <= k < |names| ==> paths[k] == JoinPath(dir, names[k])
  {
    seq(|names|, k requires 0 <= k < |names| => JoinPath(dir, names[k]))
  }

  /**
    What `merge_audio_files(output_dir, output_file)` of
    oldanddiff/tts_v5_thread-broken.py leaves at `output_file`: nothing, the
    merged audio, or, when `export` raises after pydub has opened the file,
    a file that does not hold the audio.
   */
  datatype Merged<A> = NotWritten | Written(audio: seq<A>) | ExportFailed

  /**
    `merge_audio_files(output_dir, output_file)` of
    oldanddiff/tts_v5_thread-broken.py:101-127: `listing` is
    `os.listdir(output_dir)` and `exportOk` says whether `export` succeeds on
    the merged audio. It merges the readable `.wav` entries in listing order,
    with no sort, under the first-file and skip rules of `MergeFiles`, and
    catches a failed export.
   */
  function MergeDirectory<A>(listing: seq<string>, dir: string, load: string -> Option<seq<A>>,
                             exportOk: seq<A> -> bool): (m: Merged<A>)
    ensures var paths := InDirectory(dir, WavNames(listing));
      && (m.NotWritten? <==> paths == [] || load(paths[0]).None?)
      && (!m.NotWritten? ==>
            var audio := load(paths[0]).value + Flatten(Readable(paths[1..], load));
            m == if exportOk(audio) then Written(audio) else ExportFailed)
  {
    match MergeFiles(InDirectory(dir, WavNames(listing)), load)
    case None => NotWritten
    case Some(audio) => if exportOk(audio) then Written(audio) else ExportFailed
  }

  /** The name wav.py writes its result under, inside the folder it scans (wav.py:21). */
  const EndName := "End.wav"

  /** What wav.py writes: the output path and the audio. */
  datatype Export<A> = Export(path: string, audio: seq<A>)

  /** The loop at wav.py:15-18: every file must read, or the script stops with an exception. */
  function ConcatAll<A>(combined: seq<A>, paths: seq<string>, load: string -> Option<seq<A>>): Option<seq<A>>
    decreases |paths|
  {
    if paths == [] then Some(combined)
    else match load(paths[0])
      case None => None
      case Some(audio) => ConcatAll(combined + audio, paths[1..], load)
  }

  /** Every file of `paths` can be read. */
  predicate AllRead<A>(paths: seq<string>, load: string -> Option<seq<A>>) {
    forall k :: 0 <= k < |paths| ==> load(paths[k]).Some?
  }

  lemma {:induction false} ConcatAllOutcome<A>(combined: seq<A>, paths: seq<string>, load: string -> Option<seq<A>>)
    ensures ConcatAll(combined, paths, load).Some? <==> AllRead(paths, load)
    ensures AllRead(paths, load) ==> ConcatAll(combined, paths, load).value == combined + Flatten(Loaded(paths, load))
    decreases |paths|
  {
    if paths == [] {
      assert Loaded(paths, load) == [];
    } else {
      var tail := paths[1..];
      assert forall k :: 1 <= k < |paths| ==> paths[k] == tail[k - 1];
      assert AllRead(paths, load) <==> load(paths[0]).Some? && AllRead(tail, load);
      if load(paths[0]).Some? {
        var audio := load(paths[0]).value;
        ConcatAllOutcome(combined + audio, tail, load);
        if AllRead(paths, load) {
          assert Loaded(paths, load) == [audio] + Loaded(tail, load);
        }
      }
    }
  }

  /** The `.wav` entries of a listing, sorted in `order`. */
  function FolderNames(order: Order, listing: seq<string>): seq<string> {
    Sort(order, WavNames(listing))
  }

  /** Sorting keeps exactly the `.wav` entries of the listing. */
  lemma FolderNamesMembers(order: Order, listing: seq<string>)
    ensures forall f :: f in FolderNames(order, listing) <==> f in listing && EndsWith(f, WavExtension)
  {
    var names := FolderNames(order, listing);
    forall f
      ensures f in names <==> f in WavNames(listing)
    {
      assert f in names <==> f in multiset(names);
    }
  }

  /** Lines 8-22 of wav.py with the file list sorted in `order`; `None` when a read raises. */
  function MergeFolder<A>(order: Order, listing: seq<string>, folder: string, load: string -> Option<seq<A>>)
    : (r: Option<Export<A>>)
    ensures r.Some? ==> r.value.path == JoinPath(folder, EndName)
    ensures r.None? <==> !AllRead(InDirectory(folder, FolderNames(order, listing)), load)
  {
    ConcatAllOutcome([], InDirectory(folder, FolderNames(order, listing)), load);
    match ConcatAll([], InDirectory(folder, FolderNames(order, listing)), load)
    case None => None
    case Some(audio) => Some(Export(JoinPath(folder, EndName), audio))
  }

  /**
    The folder merge takes exactly the `.wav` entries, sorted, concatenated
    from empty audio (so an empty folder gives empty audio), and fails when
    any of them cannot be read; it writes `End.wav` into the scanned folder.
   */
  lemma MergeFolderOutcome<A>(order: Order, listing: seq<string>, folder: string, load: string -> Option<seq<A>>)
    ensures var names := FolderNames(order, listing);
      && Sorted(order, names)
      && multiset(names) == multiset(WavNames(listing))
      && (forall f :: f in names <==> f in listing && EndsWith(f, WavExtension))
      && var paths := InDirectory(folder, names);
      && (MergeFolder(order, listing, folder, load).Some? <==> AllRead(paths, load))
      && (AllRead(paths, load) ==>
            MergeFolder(order, listing, folder, load).value == Export(JoinPath(folder, EndName), Flatten(Loaded(paths, load))))
  {
    FolderNamesMembers(order, listing);
    ConcatAllOutcome([], InDirectory(folder, FolderNames(order, listing)), load);
  }

  /** The script wav.py as written: `listing` is `os.listdir(folder_path)`, sorted by `list.sort()`. */
  function WavScript<A>(listing: seq<string>, folder: string, load: string -> Option<seq<A>>): Option<Export<A>> {
    MergeFolder(Lexicographic, listing, folder, load)
  }

  /** wav.py with the sort it evidently intends: `audio_files.sort(key=lambda f: (len(f), f))`. */
  function WavScriptInChunkOrder<A>(listing: seq<string>, folder: string, load: string -> Option<seq<A>>): Option<Export<A>> {
    MergeFolder(Shortlex, listing, folder, load)
  }

  /** The segment names of chunks `idx`, in that order. */
  function SegmentNames(idx: seq<nat>): (names: seq<string>)
    ensures |names| == |idx|
    ensures forall k :: 0 <= k < |idx| ==> names[k] == SegmentName(idx[k])
  {
    seq(|idx|, k requires 0 <= k < |idx| => SegmentName(idx[k]))
  }

  /** String order is not chunk order: wav.py puts `output_10.wav` before `output_2.wav`. */
  lemma StringOrderIsNotChunkOrder()
    ensures StrictlyBelow(SegmentName(10), SegmentName(2))
    ensures FolderNames(Lexicographic, SegmentNames([2, 10])) == SegmentNames([10, 2])
  {
    TenBelowTwo();
    var two, ten := SegmentName(2), SegmentName(10);
    assert SegmentNames([2, 10]) == [two, ten];
    assert SegmentNames([10, 2]) == [ten, two];
    SwapPair(two, ten);
  }

  /**
    The script as written, run over a folder holding the readable segments of
    chunks 2 and 10, writes `End.wav` with chunk 10's audio before chunk 2's.
   */
  lemma WavScriptPutsTenBeforeTwo<A>(folder: string, load: string -> Option<seq<A>>)
    requires load(JoinPath(folder, SegmentName(2))).Some? && load(JoinPath(folder, SegmentName(10))).Some?
    ensures WavScript(SegmentNames([2, 10]), folder, load) ==
      Some(Export(JoinPath(folder, EndName),
                  load(JoinPath(folder, SegmentName(10))).value + load(JoinPath(folder, SegmentName(2))).value))
  {
    TenBelowTwo();
    var two, ten := SegmentName(2), SegmentName(10);
    assert SegmentNames([2, 10]) == [two, ten];
    WavScriptSwapsPair(two, ten, folder, load);
  }

  /** The script over two readable `.wav` files listed out of string order merges the second first. */
  lemma WavScriptSwapsPair<A>(a: string, b: string, folder: string, load: string -> Option<seq<A>>)
    requires EndsWith(a, WavExtension) && EndsWith(b, WavExtension)
    requires StrictlyBelow(b, a)
    requires load(JoinPath(folder, a)).Some? && load(JoinPath(folder, b)).Some?
    ensures WavScript([a, b], folder, load) ==
      Some(Export(JoinPath(folder, EndName), load(JoinPath(folder, b)).value + load(JoinPath(folder, a)).value))
  {
    SwapPair(a, b);
    var pb, pa := JoinPath(folder, b), JoinPath(folder, a);
    var paths := InDirectory(folder, [b, a]);
    assert paths == [pb, pa];
    ConcatPair(pb, pa, load);
    MergeFolderOf(Lexicographic, [a, b], folder, load, [b, a], load(pb).value + load(pa).value);
  }

  /** The folder merge writes `End.wav` with the audio the sorted entries concatenate to. */
  lemma MergeFolderOf<A>(order: Order, listing: seq<string>, folder: string, load: string -> Option<seq<A>>,
                         names: seq<string>, audio: seq<A>)
    requires FolderNames(order, listing) == names
    requires ConcatAll([], InDirectory(folder, names), load) == Some(audio)
    ensures MergeFolder(order, listing, folder, load) == Some(Export(JoinPath(folder, EndName), audio))
  {
  }

  /** Two readable files concatenate from empty audio into the first then the second. */
  lemma ConcatPair<A>(p: string, q: string, load: string -> Option<seq<A>>)
    requires load(p).Some? && load(q).Some?
    ensures ConcatAll([], [p, q], load) == Some(load(p).value + load(q).value)
  {
    var cp, cq := load(p).value, load(q).value;
    assert [p, q][1..] == [q] && [q][1..] == [];
    assert ConcatAll(cp, [q], load) == Some(cp + cq);
    assert [] + cp == cp;
  }

  /** Two `.wav` names listed out of order come back swapped. */
  lemma SwapPair(a: string, b: string)
    requires EndsWith(a, WavExtension) && EndsWith(b, WavExtension)
    requires StrictlyBelow(b, a)
    ensures FolderNames(Lexicographic, [a, b]) == [b, a]
  {
    WavNamesAllWav([a, b]);
    assert multiset([a, b]) == multiset([b, a]);
    assert Sorted(Lexicographic, [b, a]);
    SortedUnique(Lexicographic, FolderNames(Lexicographic, [a, b]), [b, a]);
  }

  lemma TenBelowTwo()
    ensures StrictlyBelow(SegmentName(10), SegmentName(2))
  {
    SegmentNamesTenTwo();
    BelowAppend("output_", "output_", "10.wav", "2.wav");
  }

  lemma SegmentNamesTenTwo()
    ensures SegmentName(10) == "output_" + "10.wav"
    ensures SegmentName(2) == "output_" + "2.wav"
  {
    assert NatToString(1) == "1";
    assert NatToString(10) == "10";
  }

  /** Shorter names first, then code-point order, is chunk order on segment names. */
  lemma ShortlexIsChunkOrder(i: nat, j: nat)
    ensures Before(Shortlex, SegmentName(i), SegmentName(j)) <==> i <= j
  {
    var si, sj := NatToString(i), NatToString(j);
    assert SegmentName(i) == "output_" + (si + ".wav");
    assert SegmentName(j) == "output_" + (sj + ".wav");
    if |si| < |sj| {
      if i > j {
        NatToStringLength(j, i);
      }
    } else if |si| > |sj| {
      if i <= j {
        NatToStringLength(i, j);
      }
    } else {
      BelowAppend("output_", "output_", si + ".wav", sj + ".wav");
      BelowAppend(si, sj, ".wav", ".wav");
      BelowTotal(".wav", ".wav");
      NatToStringOrder(i, j);
      if si == sj {
        NatToStringInjective(i, j);
      }
    }
  }

  /** Segment names of ascending chunks are in `Shortlex` order. */
  lemma SegmentNamesSorted(idx: seq<nat>)
    requires forall a, b :: 0 <= a < b < |idx| ==> idx[a] < idx[b]
    ensures Sorted(Shortlex, SegmentNames(idx))
  {
    var names := SegmentNames(idx);
    forall a, b | 0 <= a < b < |idx|
      ensures Before(Shortlex, names[a], names[b])
    {
      ShortlexIsChunkOrder(idx[a], idx[b]);
    }
  }

  /**
    The corrected wav.py merges a folder of segments in chunk order, whatever
    order the folder is listed in and however many chunks there are.
   */
  lemma ChunkOrderMergesInChunkOrder<A>(idx: seq<nat>, listing: seq<string>, folder: string, load: string -> Option<seq<A>>)
    requires forall a, b :: 0 <= a < b < |idx| ==> idx[a] < idx[b]
    requires multiset(WavNames(listing)) == multiset(SegmentNames(idx))
    ensures FolderNames(Shortlex, listing) == SegmentNames(idx)
    ensures var paths := InDirectory(folder, SegmentNames(idx));
      AllRead(paths, load) ==>
        WavScriptInChunkOrder(listing, folder, load) == Some(Export(JoinPath(folder, EndName), Flatten(Loaded(paths, load))))
  {
    SegmentNamesSorted(idx);
    SortedUnique(Shortlex, FolderNames(Shortlex, listing), SegmentNames(idx));
    MergeFolderOutcome(Shortlex, listing, folder, load);
  }

  /**
    wav.py's own output is a `.wav` entry of the folder it scans, and it sorts
    before every segment, so a second run merges the first run's result first.
   */
  lemma EndNameSortsFirst(i: nat)
    ensures EndsWith(EndName, WavExtension)
    ensures StrictlyBelow(EndName, SegmentName(i))
  {
    var name := SegmentName(i);
    assert name[0] == 'o';
  }

  /**
    A later run over a folder holding `End.wav` and segments (entry `k` is
    `End.wav` or the segment of chunk `idx[k]`) merges `End.wav` first, so the
    earlier result is repeated at the head of the new one.
   */
  lemma SecondRunStartsWithEnd(listing: seq<string>, idx: seq<nat>)
    requires EndName in listing
    requires |idx| == |listing|
    requires forall k :: 0 <= k < |listing| ==> listing[k] == EndName || listing[k] == SegmentName(idx[k])
    ensures var names := FolderNames(Lexicographic, listing); |names| > 0 && names[0] == EndName
  {
    var names := FolderNames(Lexicographic, listing);
    EndNameSortsFirst(0);
    FolderNamesMembers(Lexicographic, listing);
    assert EndName in names;
    HeadIsLeast(Lexicographic, names, EndName);
    var first := names[0];
    assert first in listing;
    var k :| 0 <= k < |listing| && listing[k] == first;
    if first != EndName {
      assert false;
    }
  }
}

=== FILE: paths.dfy ===
/**
  File names and paths the pipeline derives: `os.path.join`, the segment file
  name `output_<idx>.wav`, and the per-document names of
  oldanddiff/tts_v5_thread-broken.py:138-140 and 157.

  `os.path` is modelled in its POSIX form, separator `/`; on Windows, where
  the scripts were run, `ntpath` joins with a backslash instead.
 */
module Paths {
  import opened Strings

  const Sep: char := '/'

  /** `os.path.join(dir, name)` for a relative `name`. */
  function JoinPath(dir: string, name: string): (p: string)
    ensures EndsWith(p, name)
  {
    if |dir| == 0 || dir[|dir| - 1] == Sep then dir + name else dir + [Sep] + name
  }

  /**
    The joined path is the directory, then a separator unless the directory
    is empty or already ends with one, then the name.
   */
  lemma JoinPathShape(dir: string, name: string)
    ensures var p := JoinPath(dir, name);
      && dir <= p
      && (|dir| == 0 || dir[|dir| - 1] == Sep ==> |p| == |dir| + |name|)
      && (|dir| > 0 && dir[|dir| - 1] != Sep ==> |p| == |dir| + 1 + |name| && p[|dir|] == Sep)
  {
  }

  /** Within one directory, distinct names give distinct paths. */
  lemma JoinPathInjective(dir: string, n1: string, n2: string)
    requires JoinPath(dir, n1) == JoinPath(dir, n2)
    ensures n1 == n2
  {
    var p1, p2 := JoinPath(dir, n1), JoinPath(dir, n2);
    assert |n1| == |n2|;
    assert n1 == p1[|p1| - |n1|..] == p2[|p2| - |n2|..] == n2;
  }

  /** The segment file name of chunk `idx` (tts_v2.py:83, oldanddiff/tts_v5_thread-broken.py:77). */
  function SegmentName(idx: nat): (name: string)
    ensures EndsWith(name, ".wav")
  {
    "output_" + NatToString(idx) + ".wav"
  }

  /** `os.path.join(output_dir, f"output_{idx}.wav")`. */
  function SegmentPath(dir: string, idx: nat): string {
    JoinPath(dir, SegmentName(idx))
  }

  /** Distinct chunk indices have distinct segment names. */
  lemma SegmentNameInjective(i: nat, j: nat)
    requires SegmentName(i) == SegmentName(j)
    ensures i == j
  {
    var si, sj := NatToString(i), NatToString(j);
    assert |si| == |sj|;
    assert si == SegmentName(i)[7..7 + |si|];
    assert sj == SegmentName(j)[7..7 + |sj|];
    NatToStringInjective(i, j);
  }

  /** Distinct chunk indices have distinct segment paths in the same directory. */
  lemma SegmentPathInjective(dir: string, i: nat, j: nat)
    requires SegmentPath(dir, i) == SegmentPath(dir, j)
    ensures i == j
  {
    JoinPathInjective(dir, SegmentName(i), SegmentName(j));
    SegmentNameInjective(i, j);
  }

  /**
    `os.path.basename(path)`: what follows the last separator. The result is
    the longest separator-free end of the path: the whole path, or the part
    after a separator.
   */
  function BaseName(path: string): (name: string)
    ensures Sep !in name
    ensures EndsWith(path, name)
    ensures |name| == |path| || path[|path| - |name| - 1] == Sep
  {
    var i := LastIndexOf(path, Sep);
    path[i + 1..]
  }

  /** `os.path.basename(os.path.join(dir, name)) == name` for a plain name. */
  lemma BaseNameOfJoin(dir: string, name: string)
    requires Sep !in name
    ensures BaseName(JoinPath(dir, name)) == name
  {
    if |dir| == 0 {
      assert JoinPath(dir, name) == name;
    } else {
      var a := if dir[|dir| - 1] == Sep then dir else dir + [Sep];
      assert JoinPath(dir, name) == a + name;
      LastIndexOfSplit(a, name, Sep);
      assert (a + name)[|a|..] == name;
    }
  }

  /**
    `os.path.splitext(name)[0]` for a name without separators: the text before
    the last dot, unless that dot is preceded only by dots (".bashrc" has no
    extension).
   */
  function Stem(name: string): (stem: string)
    ensures stem <= name
    ensures |stem| < |name| ==>
      && name[|stem|] == '.'
      && (forall k :: |stem| < k < |name| ==> name[k] != '.')
      && exists k :: 0 <= k < |stem| && name[k] != '.'
    ensures |stem| == |name| ==> forall d, k :: 0 <= k < d < |name| && name[d] == '.' ==> name[k] == '.'
  {
    var d := LastIndexOf(name, '.');
    if d >= 0 && exists k :: 0 <= k < d && name[k] != '.' then name[..d]
    else
      name
  }

  /** `os.path.splitext(os.path.basename(docx_file_path))[0]` (oldanddiff/tts_v5_thread-broken.py:138). */
  function DocumentBase(docPath: string): (base: string)
    ensures Sep !in base
  {
    var name := BaseName(docPath);
    var base := Stem(name);
    assert forall c :: c in base ==> c in name;
    base
  }

  /** A document's base name depends only on its file name, not on the directory it is in. */
  lemma DocumentBaseInDirectory(dir: string, name: string)
    requires Sep !in name
    ensures DocumentBase(JoinPath(dir, name)) == Stem(name)
  {
    BaseNameOfJoin(dir, name);
  }

  /** `temp_audio_<base>`: the document's segment directory. */
  function WorkDir(base: string): string {
    "temp_audio_" + base
  }

  /** `progress_<base>.txt`: the document's progress file. */
  function ProgressPath(base: string): string {
    "progress_" + base + ".txt"
  }

  /** `<base>.wav`: the document's merged output. */
  function OutputPath(base: string): string {
    base + ".wav"
  }

  /**
    The three storage names of one document are pairwise distinct, and each of
    them is different for documents with different base names.
   */
  lemma DocumentPathsDistinct(b1: string, b2: string)
    ensures WorkDir(b1) != ProgressPath(b1) && WorkDir(b1) != OutputPath(b1) && ProgressPath(b1) != OutputPath(b1)
    ensures WorkDir(b1) == WorkDir(b2) ==> b1 == b2
    ensures ProgressPath(b1) == ProgressPath(b2) ==> b1 == b2
    ensures OutputPath(b1) == OutputPath(b2) ==> b1 == b2
  {
    if WorkDir(b1) == WorkDir(b2) {
      assert b1 == WorkDir(b1)[11..];
      assert b2 == WorkDir(b2)[11..];
    }
    if ProgressPath(b1) == ProgressPath(b2) {
      assert b1 == ProgressPath(b1)[9..9 + |b1|];
      assert b2 == ProgressPath(b2)[9..9 + |b2|];
    }
    if OutputPath(b1) == OutputPath(b2) {
      assert b1 == OutputPath(b1)[..|b1|];
      assert b2 == OutputPath(b2)[..|b2|];
    }
  }

  /** The base name of a plain file name `stem.ext`: the extension after the last dot is dropped. */
  lemma DocumentBaseOfName(stem: string, ext: string)
    requires |stem| > 0 && stem[0] != '.'
    requires Sep !in stem && Sep !in ext && '.' !in ext
    ensures DocumentBase(stem + "." + ext) == stem
  {
    var name := stem + "." + ext;
    assert Sep !in name;
    assert LastIndexOf(name, Sep) == -1;
    assert BaseName(name) == name;
    LastIndexOfSplit(stem + ".", ext, '.');
    assert name[0] != '.';
    assert name[..|stem|] == stem;
  }

  /**
    Across documents the names are not kept apart: for any plain stem `s`, the
    segment directory of `s.wav.docx` is the merged output of
    `temp_audio_s.docx`.
   */
  lemma CrossDocumentCollision(s: string)
    requires |s| > 0 && s[0] != '.' && Sep !in s
    ensures DocumentBase(s + ".wav.docx") == s + ".wav"
    ensures DocumentBase("temp_audio_" + s + ".docx") == "temp_audio_" + s
    ensures WorkDir(DocumentBase(s + ".wav.docx")) == OutputPath(DocumentBase("temp_audio_" + s + ".docx"))
  {
    WavDocumentBase(s);
    TempDocumentBase(s);
    Associative("temp_audio_", s, ".wav");
  }

  lemma Associative(a: string, b: string, c: string)
    ensures a + (b + c) == a + b + c
  {
  }

  lemma WavDocumentBase(s: string)
    requires |s| > 0 && s[0] != '.' && Sep !in s
    ensures DocumentBase(s + ".wav.docx") == s + ".wav"
  {
    var stem := s + ".wav";
    assert stem[0] != '.' && Sep !in stem;
    DocumentBaseOfName(stem, "docx");
    WavDocxName(s);
  }

  lemma TempDocumentBase(s: string)
    requires |s| > 0 && Sep !in s
    ensures DocumentBase("temp_audio_" + s + ".docx") == "temp_audio_" + s
  {
    var stem := "temp_audio_" + s;
    assert stem[0] != '.' && Sep !in stem;
    DocumentBaseOfName(stem, "docx");
    DocxName("temp_audio_", s);
  }

  lemma WavDocxName(s: string)
    ensures s + ".wav" + "." + "docx" == s + ".wav.docx"
  {
    assert ".wav" + "." + "docx" == ".wav.docx";
  }

  lemma DocxName(a: string, b: string)
    ensures a + b + "." + "docx" == a + b + ".docx"
  {
    assert "." + "docx" == ".docx";
  }
}

=== FILE: progress.dfy ===
/**
  The progress store of tts_v2.py:30-41 and oldanddiff/tts_v5_thread-broken.py:28-39:
  a text file holding the completed chunk keys joined by commas, read back
  in text mode (universal newlines) with `set(content.strip().split(','))`.
  A missing file is `None`.

  Python iterates a set in an order of its own choosing; here the keys are
  handed over as a sequence in that order. Loading forgets the order, so only
  the set of keys matters.
 */
module Progress {
  import opened Wrappers
  import opened Strings

  /** The keys as read from the file, before they become a set. */
  function LoadKeys(file: Option<string>): (keys: seq<string>)
    ensures file.None? ==> keys == []
    ensures file.Some? ==> |keys| >= 1
    ensures forall k :: 0 <= k < |keys| ==> ',' !in keys[k]
  {
    match file
    case None => []
    case Some(content) => SplitOn(Strip(UniversalNewlines(content)), ',')
  }

  /** `load_progress`: the set of completed keys. A file, even an empty one, always yields at least one key. */
  function Load(file: Option<string>): (completed: set<string>)
    ensures file.None? <==> completed == {}
    ensures forall key :: key in completed ==> ',' !in key
  {
    var keys := LoadKeys(file);
    assert file.Some? ==> keys[0] in Elems(keys);
    Elems(keys)
  }

  /**
    `save_progress`: the file content written for the keys, in iteration
    order. Keys free of commas are recovered by splitting at the commas.
   */
  function Save(keys: seq<string>): (content: string)
    ensures |keys| >= 1 && (forall k :: 0 <= k < |keys| ==> ',' !in keys[k]) ==> SplitOn(content, ',') == keys
  {
    assert |keys| >= 1 && (forall k :: 0 <= k < |keys| ==> ',' !in keys[k]) ==> SplitOn(Join(keys, ','), ',') == keys by {
      if |keys| >= 1 && (forall k :: 0 <= k < |keys| ==> ',' !in keys[k]) {
        SplitJoin(keys, ',');
      }
    }
    Join(keys, ',')
  }

  /** A key that survives the round trip: no comma, no carriage return, no whitespace at either end. */
  predicate StorableKey(key: string) {
    ',' !in key && '\r' !in key && NoEdgeSpace(key)
  }

  /**
    Saving a non-empty collection of storable keys and loading the file gives
    back exactly the set of keys, whatever the order they were written in.
   */
  lemma LoadAfterSave(keys: seq<string>)
    requires |keys| >= 1
    requires forall k :: 0 <= k < |keys| ==> StorableKey(keys[k])
    ensures Load(Some(Save(keys))) == Elems(keys)
    ensures LoadKeys(Some(Save(keys))) == keys
  {
    JoinExcludes(keys, ',', '\r');
    NoCarriageReturnReadsBack(Save(keys));
    JoinNoEdgeSpace(keys, ',');
    SplitJoin(keys, ',');
  }

  /** Saving the empty set writes an empty file, which loads as the one empty key. */
  lemma EmptySaveLoadsEmptyKey()
    ensures Save([]) == ""
    ensures Load(Some(Save([]))) == {""}
  {
    assert UniversalNewlines("") == "";
    assert Strip("") == "";
    assert SplitOn("", ',') == [""];
    assert LoadKeys(Some("")) == [""];
  }

  /** The text files of the working directory, by path. */
  type Files = map<string, string>

  /** `load_progress(progress_file)` of oldanddiff/tts_v5_thread-broken.py:28-34. */
  function LoadFrom(files: Files, path: string): set<string> {
    Load(if path in files then Some(files[path]) else None)
  }

  /**
    `save_progress(completed_chunks, progress_file)` of
    oldanddiff/tts_v5_thread-broken.py:36-39: the saved keys load back from
    that path, and what loads from every other path is unchanged.
   */
  function SaveTo(files: Files, path: string, keys: seq<string>): (files': Files)
    ensures path in files'
    ensures |keys| >= 1 && (forall k :: 0 <= k < |keys| ==> StorableKey(keys[k])) ==>
      LoadFrom(files', path) == Elems(keys)
    ensures forall q :: q != path ==> LoadFrom(files', q) == LoadFrom(files, q)
  {
    StoredKeysLoad(keys);
    files[path := Save(keys)]
  }

  /** `LoadAfterSave` for any keys, as an implication. */
  lemma StoredKeysLoad(keys: seq<string>)
    ensures |keys| >= 1 && (forall k :: 0 <= k < |keys| ==> StorableKey(keys[k])) ==> Load(Some(Save(keys))) == Elems(keys)
  {
    if |keys| >= 1 && (forall k :: 0 <= k < |keys| ==> StorableKey(keys[k])) {
      LoadAfterSave(keys);
    }
  }
}

=== FILE: seqs.dfy ===
/** Sequences of sequences: the sentences of chunk groups, the samples of audio clips. */
module Seqs {
  /** The concatenation of `xs`, left to right. */
  function Flatten<T>(xs: seq<seq<T>>): seq<T>
    decreases |xs|
  {
    if |xs| == 0 then [] else xs[0] + Flatten(xs[1..])
  }

  lemma FlattenSnoc<T>(xs: seq<seq<T>>, x: seq<T>)
    ensures Flatten(xs + [x]) == Flatten(xs) + x
    decreases |xs|
  {
    if |xs| == 0 {
      assert [x][1..] == [];
    } else {
      assert (xs + [x])[1..] == xs[1..] + [x];
      FlattenSnoc(xs[1..], x);
    }
  }

  /** Every element of every member occurs in the flattening. */
  lemma {:induction false} FlattenMember<T>(xs: seq<seq<T>>, k: nat)
    requires k < |xs|
    ensures forall j :: 0 <= j < |xs[k]| ==> xs[k][j] in Flatten(xs)
    decreases k
  {
    if k > 0 {
      FlattenMember(xs[1..], k - 1);
      assert xs[1..][k - 1] == xs[k];
    }
  }
}

=== FILE: sorting.dfy ===
/**
  Sorting a list of file names. `list.sort()` on `str` (wav.py:9) orders by
  code points (`Lexicographic`); sorting with the key `(len(f), f)` orders
  shorter names first and names of one length by code points (`Shortlex`).
  Written as an insertion sort; `SortedUnique` shows any sort meeting the
  same contract gives the same list, so the choice of algorithm does not
  matter.
 */
module Sorting {
  import opened Strings

  datatype Order = Lexicographic | Shortlex

  /** `a` may come before `b` in `order`. */
  predicate Before(order: Order, a: string, b: string) {
    match order
    case Lexicographic => Below(a, b)
    case Shortlex => |a| < |b| || (|a| == |b| && Below(a, b))
  }

  lemma BeforeTotal(order: Order, a: string, b: string)
    ensures Before(order, a, b) || Before(order, b, a)
  {
    BelowTotal(a, b);
  }

  lemma BeforeAntisymmetric(order: Order, a: string, b: string)
    requires Before(order, a, b) && Before(order, b, a)
    ensures a == b
  {
    BelowAntisymmetric(a, b);
  }

  lemma BeforeTransitive(order: Order, a: string, b: string, c: string)
    requires Before(order, a, b) && Before(order, b, c)
    ensures Before(order, a, c)
  {
    if order == Lexicographic || (|a| == |b| == |c|) {
      BelowTransitive(a, b, c);
    }
  }

  ghost predicate Sorted(order: Order, xs: seq<string>) {
    forall a, b :: 0 <= a < b < |xs| ==> Before(order, xs[a], xs[b])
  }

  /** Inserts `x` into the sorted `xs` before the first element it may precede. */
  function Insert(order: Order, x: string, xs: seq<string>): (r: seq<string>)
    requires Sorted(order, xs)
    ensures Sorted(order, r)
    ensures multiset(r) == multiset(xs) + multiset{x}
    ensures forall k :: 0 <= k < |r| ==> r[k] == x || r[k] in xs
  {
    if xs == [] then [x]
    else if Before(order, x, xs[0]) then
      InsertAtHead(order, x, xs);
      [x] + xs
    else
      BeforeTotal(order, x, xs[0]);
      var rest := Insert(order, x, xs[1..]);
      InsertAfterHead(order, x, xs, rest);
      [xs[0]] + rest
  }

  lemma InsertAtHead(order: Order, x: string, xs: seq<string>)
    requires Sorted(order, xs) && |xs| > 0 && Before(order, x, xs[0])
    ensures Sorted(order, [x] + xs)
  {
    assert forall b :: 0 < b < |xs| + 1 ==> ([x] + xs)[b] == xs[b - 1];
    BeforeAll(order, x, xs);
  }

  /** `xs[0]` followed by the insertion into the tail is the insertion into `xs`. */
  lemma InsertAfterHead(order: Order, x: string, xs: seq<string>, rest: seq<string>)
    requires Sorted(order, xs) && |xs| > 0 && Before(order, xs[0], x)
    requires Sorted(order, rest)
    requires multiset(rest) == multiset(xs[1..]) + multiset{x}
    requires forall k :: 0 <= k < |rest| ==> rest[k] == x || rest[k] in xs[1..]
    ensures Sorted(order, [xs[0]] + rest)
    ensures multiset([xs[0]] + rest) == multiset(xs) + multiset{x}
    ensures forall k :: 0 <= k < |[xs[0]] + rest| ==> ([xs[0]] + rest)[k] == x || ([xs[0]] + rest)[k] in xs
  {
    forall k | 0 <= k < |rest|
      ensures Before(order, xs[0], rest[k])
    {
      if rest[k] != x {
        var j :| 0 <= j < |xs[1..]| && xs[1..][j] == rest[k];
        assert xs[j + 1] == rest[k];
      }
    }
    assert xs == [xs[0]] + xs[1..];
  }

  /** An element that may precede the head of a sorted list may precede all of it. */
  lemma BeforeAll(order: Order, x: string, xs: seq<string>)
    requires Sorted(order, xs) && |xs| > 0 && Before(order, x, xs[0])
    ensures forall b :: 0 <= b < |xs| ==> Before(order, x, xs[b])
  {
    forall b | 0 <= b < |xs|
      ensures Before(order, x, xs[b])
    {
      if b > 0 {
        BeforeTransitive(order, x, xs[0], xs[b]);
      }
    }
  }

  /** The list sorted in `order`. */
  function Sort(order: Order, xs: seq<string>): (r: seq<string>)
    ensures Sorted(order, r)
    ensures multiset(r) == multiset(xs)
  {
    if xs == [] then []
    else
      assert xs == [xs[0]] + xs[1..];
      Insert(order, xs[0], Sort(order, xs[1..]))
  }

  /** The head of a non-empty sorted list may precede every element of it. */
  lemma HeadIsLeast(order: Order, xs: seq<string>, y: string)
    requires Sorted(order, xs) && y in multiset(xs)
    ensures |xs| > 0 && Before(order, xs[0], y)
  {
    var i :| 0 <= i < |xs| && xs[i] == y;
    if i == 0 {
      BeforeTotal(order, y, y);
    }
  }

  /** Sorted lists holding the same strings start with the same string. */
  lemma SameHead(order: Order, a: seq<string>, b: seq<string>)
    requires Sorted(order, a) && Sorted(order, b) && |a| > 0
    requires multiset(a) == multiset(b)
    ensures |b| > 0 && a[0] == b[0]
  {
    assert a[0] in multiset(a);
    HeadIsLeast(order, b, a[0]);
    HeadIsLeast(order, a, b[0]);
    BeforeAntisymmetric(order, a[0], b[0]);
  }

  /** Removing the head keeps a list sorted and takes one copy of it out of the multiset. */
  lemma Tail(order: Order, a: seq<string>)
    requires Sorted(order, a) && |a| > 0
    ensures Sorted(order, a[1..])
    ensures multiset(a[1..]) == multiset(a) - multiset{a[0]}
  {
    assert a == [a[0]] + a[1..];
  }

  /** A sorted permutation is unique: any correct sort agrees with `Sort`. */
  lemma {:induction false} SortedUnique(order: Order, a: seq<string>, b: seq<string>)
    requires Sorted(order, a) && Sorted(order, b)
    requires multiset(a) == multiset(b)
    ensures a == b
    decreases |a|
  {
    if a == [] {
      assert |b| == |multiset(b)| == 0;
    } else {
      SameHead(order, a, b);
      Tail(order, a);
      Tail(order, b);
      SortedUnique(order, a[1..], b[1..]);
      assert a == [a[0]] + a[1..];
      assert b == [b[0]] + b[1..];
    }
  }

  /** The sorted list is `xs` itself exactly when `xs` is already sorted. */
  lemma SortIdentity(order: Order, xs: seq<string>)
    ensures Sort(order, xs) == xs <==> Sorted(order, xs)
  {
    if Sorted(order, xs) {
      SortedUnique(order, Sort(order, xs), xs);
    }
  }
}

=== FILE: strings.dfy ===
/**
  The few Python string operations the pipeline relies on, written out over
  `seq<char>` (one `char` is one Unicode scalar value, so `|s|` is Python's
  `len(s)`): `str.strip()`, `sep.join(parts)`, `s.split(sep)`, `str(n)` for
  a natural number, `s.endswith(suffix)` and the code-point order `<=` that
  `list.sort()` uses on strings.
 */
module Strings {

  /** The characters `str.isspace()` accepts, hence those `str.strip()` removes. */
  predicate IsSpace(c: char) {
    || ('\t' <= c <= '\r')
    || ('\U{1C}' <= c <= ' ')
    || c == '\U{85}' || c == '\U{A0}' || c == '\U{1680}'
    || ('\U{2000}' <= c <= '\U{200A}')
    || c == '\U{2028}' || c == '\U{2029}' || c == '\U{202F}' || c == '\U{205F}'
    || c == '\U{3000}'
  }

  /** `s` neither starts nor ends with whitespace. */
  predicate NoEdgeSpace(s: string) {
    |s| == 0 || (!IsSpace(s[0]) && !IsSpace(s[|s| - 1]))
  }

  /** `s.rstrip()`: drops exactly the trailing whitespace. */
  function TrimRight(s: string): (r: string)
    ensures r <= s
    ensures |r| > 0 ==> !IsSpace(r[|r| - 1])
    ensures forall k :: |r| <= k < |s| ==> IsSpace(s[k])
    decreases |s|
  {
    if |s| > 0 && IsSpace(s[|s| - 1]) then TrimRight(s[..|s| - 1]) else s
  }

  /** `s.lstrip()`: drops exactly the leading whitespace. */
  function TrimLeft(s: string): (r: string)
    ensures |r| <= |s| && r == s[|s| - |r|..]
    ensures |r| > 0 ==> !IsSpace(r[0])
    ensures forall k :: 0 <= k < |s| - |r| ==> IsSpace(s[k])
    decreases |s|
  {
    if |s| > 0 && IsSpace(s[0]) then TrimLeft(s[1..]) else s
  }

  /** `s` is `r` surrounded by whitespace only: `r == s[i..j]` and every character outside it is whitespace. */
  ghost predicate Trimmed(s: string, r: string, i: int, j: int) {
    && 0 <= i <= j <= |s| && r == s[i..j]
    && (forall k :: 0 <= k < i ==> IsSpace(s[k]))
    && (forall k :: j <= k < |s| ==> IsSpace(s[k]))
  }

  /** `s.strip()`: `s` with its leading and trailing whitespace removed, and nothing else. */
  function Strip(s: string): (r: string)
    ensures NoEdgeSpace(r)
    ensures exists i, j :: Trimmed(s, r, i, j)
    ensures NoEdgeSpace(s) ==> r == s
  {
    var t := TrimRight(s);
    var r := TrimLeft(t);
    assert |r| > 0 ==> r[|r| - 1] == t[|t| - 1];
    assert Trimmed(s, r, |t| - |r|, |t|);
    r
  }

  /** Only one text is `s` with edge whitespace removed: any such `r` is `Strip(s)`. */
  lemma StripUnique(s: string, r: string, i: int, j: int)
    requires Trimmed(s, r, i, j) && NoEdgeSpace(r)
    ensures r == Strip(s)
  {
    var r0 := Strip(s);
    var i0, j0 :| Trimmed(s, r0, i0, j0);
    TrimmedUnique(s, r, i, j, r0, i0, j0);
  }

  lemma TrimmedUnique(s: string, r: string, i: int, j: int, r0: string, i0: int, j0: int)
    requires Trimmed(s, r, i, j) && NoEdgeSpace(r)
    requires Trimmed(s, r0, i0, j0) && NoEdgeSpace(r0)
    ensures r == r0
  {
    if i < j {
      assert !IsSpace(s[i]);
      if i0 < j0 {
        assert !IsSpace(s[i0]) && !IsSpace(s[j - 1]) && !IsSpace(s[j0 - 1]);
        assert i == i0 && j == j0;
      }
    }
  }

  /**
    Reading in Python's text mode with universal newlines: `"\r\n"` and a
    lone `'\r'` both read as `'\n'`.
   */
  function UniversalNewlines(s: string): (r: string)
    ensures '\r' !in r
    ensures |r| <= |s|
    decreases |s|
  {
    if |s| == 0 then ""
    else if s[0] == '\r' then "\n" + UniversalNewlines(if |s| >= 2 && s[1] == '\n' then s[2..] else s[1..])
    else [s[0]] + UniversalNewlines(s[1..])
  }

  /**
    The translation, one line ending at a time: `"\r\n"` reads as one `'\n'`,
    a `'\r'` not followed by `'\n'` reads as `'\n'`, and any other character
    is kept.
   */
  lemma UniversalNewlinesTranslates(c: char, t: string)
    ensures UniversalNewlines("\r\n" + t) == "\n" + UniversalNewlines(t)
    ensures (t == [] || t[0] != '\n') ==> UniversalNewlines("\r" + t) == "\n" + UniversalNewlines(t)
    ensures c != '\r' ==> UniversalNewlines([c] + t) == [c] + UniversalNewlines(t)
  {
    assert ("\r\n" + t)[2..] == t;
    assert ("\r" + t)[1..] == t;
    assert ([c] + t)[1..] == t;
  }

  /** A text without carriage returns reads back unchanged. */
  lemma {:induction false} NoCarriageReturnReadsBack(s: string)
    requires '\r' !in s
    ensures UniversalNewlines(s) == s
    decreases |s|
  {
    if |s| > 0 {
      assert s == [s[0]] + s[1..];
      NoCarriageReturnReadsBack(s[1..]);
    }
  }

  /** `[sep].join(parts)`. */
  function Join(parts: seq<string>, sep: char): string
    decreases |parts|
  {
    if |parts| == 0 then ""
    else if |parts| == 1 then parts[0]
    else parts[0] + [sep] + Join(parts[1..], sep)
  }

  /** `s.split(sep)` for a one-character separator: never empty, `"".split(",") == [""]`. */
  function SplitOn(s: string, sep: char): (parts: seq<string>)
    ensures |parts| >= 1
    ensures forall k :: 0 <= k < |parts| ==> sep !in parts[k]
    decreases |s|
  {
    if |s| == 0 then [""]
    else
      var rest := SplitOn(s[1..], sep);
      if s[0] == sep then [""] + rest
      else [[s[0]] + rest[0]] + rest[1..]
  }

  /** The set of elements of a sequence. */
  function Elems<T>(s: seq<T>): set<T> {
    set x | x in s
  }

  /** Splitting text that starts with a separator-free `a` puts `a` at the head of the first part. */
  lemma {:induction false} SplitPrefix(a: string, t: string, sep: char)
    requires sep !in a
    ensures SplitOn(a + t, sep) == [a + SplitOn(t, sep)[0]] + SplitOn(t, sep)[1..]
    decreases |a|
  {
    if |a| > 0 {
      assert (a + t)[0] == a[0];
      assert (a + t)[1..] == a[1..] + t;
      SplitPrefix(a[1..], t, sep);
      assert [a[0]] + (a[1..] + SplitOn(t, sep)[0]) == a + SplitOn(t, sep)[0];
    } else {
      var parts := SplitOn(t, sep);
      assert a + t == t;
      assert a + parts[0] == parts[0];
      assert parts == [parts[0]] + parts[1..];
    }
  }

  /** Joining separator-free parts and splitting again gives back the parts, provided there is at least one. */
  lemma {:induction false} SplitJoin(parts: seq<string>, sep: char)
    requires |parts| >= 1
    requires forall k :: 0 <= k < |parts| ==> sep !in parts[k]
    ensures SplitOn(Join(parts, sep), sep) == parts
    decreases |parts|
  {
    if |parts| == 1 {
      SplitPrefix(parts[0], "", sep);
      assert parts[0] + "" == parts[0];
    } else {
      var tail := Join(parts[1..], sep);
      SplitJoin(parts[1..], sep);
      assert Join(parts, sep) == parts[0] + ([sep] + tail);
      SplitPrefix(parts[0], [sep] + tail, sep);
      assert ([sep] + tail)[1..] == tail;
      assert SplitOn([sep] + tail, sep) == [""] + parts[1..];
      assert parts[0] + "" == parts[0];
    }
  }

  /** A join of parts without edge whitespace, on a non-space separator, has no edge whitespace. */
  lemma {:induction false} JoinNoEdgeSpace(parts: seq<string>, sep: char)
    requires !IsSpace(sep)
    requires forall k :: 0 <= k < |parts| ==> NoEdgeSpace(parts[k])
    ensures NoEdgeSpace(Join(parts, sep))
    decreases |parts|
  {
    if |parts| >= 2 {
      JoinNoEdgeSpace(parts[1..], sep);
      var tail := Join(parts[1..], sep);
      var j := Join(parts, sep);
      assert j == parts[0] + [sep] + tail;
      assert j[0] == if |parts[0]| > 0 then parts[0][0] else sep;
      assert j[|j| - 1] == if |tail| > 0 then tail[|tail| - 1] else sep;
    }
  }

  /** A character found in no part and different from the separator is not in the joined text. */
  lemma {:induction false} JoinExcludes(parts: seq<string>, sep: char, c: char)
    requires c != sep
    requires forall k :: 0 <= k < |parts| ==> c !in parts[k]
    ensures c !in Join(parts, sep)
    decreases |parts|
  {
    if |parts| >= 2 {
      JoinExcludes(parts[1..], sep, c);
    }
  }

  /** A space-join of non-empty parts without edge whitespace is non-empty and has no edge whitespace. */
  lemma {:induction false} JoinNonEmptyNoEdgeSpace(parts: seq<string>, sep: char)
    requires |parts| >= 1
    requires forall k :: 0 <= k < |parts| ==> |parts[k]| > 0 && NoEdgeSpace(parts[k])
    ensures |Join(parts, sep)| > 0 && NoEdgeSpace(Join(parts, sep))
    decreases |parts|
  {
    if |parts| >= 2 {
      JoinNonEmptyNoEdgeSpace(parts[1..], sep);
      var tail := Join(parts[1..], sep);
      var j := Join(parts, sep);
      assert j == parts[0] + [sep] + tail;
      assert j[0] == parts[0][0];
      assert j[|j| - 1] == tail[|tail| - 1];
    }
  }

  /** Stripping `x + " "` gives back `x` when `x` has no edge whitespace. */
  lemma StripTrailingSpace(x: string)
    requires NoEdgeSpace(x)
    ensures Strip(x + " ") == x
  {
    assert (x + " ")[..|x|] == x;
    assert TrimRight(x + " ") == TrimRight(x) == x;
  }

  /** Joining one more part at the end: `Join(ps + [p]) == Join(ps) + sep + p`. */
  lemma {:induction false} JoinSnoc(parts: seq<string>, p: string, sep: char)
    requires |parts| >= 1
    ensures Join(parts + [p], sep) == Join(parts, sep) + [sep] + p
    decreases |parts|
  {
    if |parts| == 1 {
      assert (parts + [p])[1..] == [p];
    } else {
      assert (parts + [p])[1..] == parts[1..] + [p];
      JoinSnoc(parts[1..], p, sep);
    }
  }

  /** The decimal digit for `d`. */
  function Digit(d: nat): (c: char)
    requires d < 10
    ensures '0' <= c <= '9'
  {
    (48 + d) as char
  }

  /** `str(n)` for a natural number: its decimal digits, no sign, no leading zero. */
  function NatToString(n: nat): (s: string)
    ensures |s| >= 1
    ensures |s| == 1 <==> n < 10
    ensures forall k :: 0 <= k < |s| ==> '0' <= s[k] <= '9'
    ensures s[0] == '0' ==> n == 0
    decreases n
  {
    if n < 10 then [Digit(n)] else NatToString(n / 10) + [Digit(n % 10)]
  }

  /** Distinct numbers have distinct decimal strings. */
  lemma {:induction false} NatToStringInjective(m: nat, n: nat)
    requires NatToString(m) == NatToString(n)
    ensures m == n
    decreases m
  {
    if m >= 10 {
      var sm, sn := NatToString(m), NatToString(n);
      assert n >= 10;
      assert sm[..|sm| - 1] == NatToString(m / 10);
      assert sn[..|sn| - 1] == NatToString(n / 10);
      NatToStringInjective(m / 10, n / 10);
      assert Digit(m % 10) == sm[|sm| - 1] == sn[|sn| - 1] == Digit(n % 10);
    }
  }

  /** Longer numbers have longer decimal strings. */
  lemma {:induction false} NatToStringLength(m: nat, n: nat)
    requires m <= n
    ensures |NatToString(m)| <= |NatToString(n)|
    decreases m
  {
    if m >= 10 {
      NatToStringLength(m / 10, n / 10);
    }
  }

  /** Among decimal strings of one length, string order is numeric order. */
  lemma {:induction false} NatToStringOrder(m: nat, n: nat)
    requires |NatToString(m)| == |NatToString(n)|
    ensures Below(NatToString(m), NatToString(n)) <==> m <= n
    decreases m
  {
    if m < 10 {
      BelowAppend([], [], [Digit(m)], [Digit(n)]);
      assert Below([Digit(m)], [Digit(n)]) <==> Digit(m) <= Digit(n);
    } else {
      var a, b := NatToString(m / 10), NatToString(n / 10);
      assert NatToString(m) == a + [Digit(m % 10)];
      assert NatToString(n) == b + [Digit(n % 10)];
      NatToStringOrder(m / 10, n / 10);
      BelowAppend(a, b, [Digit(m % 10)], [Digit(n % 10)]);
      assert Below([Digit(m % 10)], [Digit(n % 10)]) <==> Digit(m % 10) <= Digit(n % 10);
      if a == b {
        NatToStringInjective(m / 10, n / 10);
      }
      assert m == 10 * (m / 10) + m % 10;
      assert n == 10 * (n / 10) + n % 10;
    }
  }

  /**
    Comparing two concatenations whose first parts have the same length: the
    first parts decide unless they are equal, and then the second parts do.
   */
  lemma {:induction false} BelowAppend(a: string, b: string, c: string, d: string)
    requires |a| == |b|
    ensures Below(a + c, b + d) <==> (a != b && Below(a, b)) || (a == b && Below(c, d))
    decreases |a|
  {
    if |a| == 0 {
      assert a + c == c && b + d == d;
    } else {
      assert (a + c)[0] == a[0] && (a + c)[1..] == a[1..] + c;
      assert (b + d)[0] == b[0] && (b + d)[1..] == b[1..] + d;
      assert a == [a[0]] + a[1..] && b == [b[0]] + b[1..];
      BelowAppend(a[1..], b[1..], c, d);
    }
  }

  /** `s.rfind(c)`: the last position of `c` in `s`, or -1. */
  function LastIndexOf(s: string, c: char): (i: int)
    ensures -1 <= i < |s|
    ensures i >= 0 ==> s[i] == c
    ensures forall k :: i < k < |s| ==> s[k] != c
    decreases |s|
  {
    if |s| == 0 then -1
    else if s[|s| - 1] == c then |s| - 1
    else LastIndexOf(s[..|s| - 1], c)
  }

  /** The last `c` of `a + b` is the last character of `a` when `b` holds none. */
  lemma {:induction false} LastIndexOfSplit(a: string, b: string, c: char)
    requires |a| > 0 && a[|a| - 1] == c && c !in b
    ensures LastIndexOf(a + b, c) == |a| - 1
    decreases |b|
  {
    if |b| > 0 {
      var s := a + b;
      assert s[|s| - 1] == b[|b| - 1];
      assert s[..|s| - 1] == a + b[..|b| - 1];
      LastIndexOfSplit(a, b[..|b| - 1], c);
    } else {
      assert a + b == a;
    }
  }

  /** `s.endswith(suffix)`. */
  predicate EndsWith(s: string, suffix: string) {
    |suffix| <= |s| && s[|s| - |suffix|..] == suffix
  }

  /** Python's `a <= b` on strings: code-point lexicographic order. */
  predicate Below(a: string, b: string)
    decreases |a|
  {
    |a| == 0 || (|b| > 0 && (a[0] < b[0] || (a[0] == b[0] && Below(a[1..], b[1..]))))
  }

  /** Python's `a < b` on strings. */
  predicate StrictlyBelow(a: string, b: string) {
    Below(a, b) && a != b
  }

  lemma {:induction false} BelowTotal(a: string, b: string)
    ensures Below(a, b) || Below(b, a)
    decreases |a|
  {
    if |a| > 0 && |b| > 0 && a[0] == b[0] {
      BelowTotal(a[1..], b[1..]);
    }
  }

  lemma {:induction false} BelowAntisymmetric(a: string, b: string)
    requires Below(a, b) && Below(b, a)
    ensures a == b
    decreases |a|
  {
    if |a| > 0 {
      BelowAntisymmetric(a[1..], b[1..]);
      assert a == [a[0]] + a[1..];
      assert b == [b[0]] + b[1..];
    }
  }

  lemma {:induction false} BelowTransitive(a: string, b: string, c: string)
    requires Below(a, b) && Below(b, c)
    ensures Below(a, c)
    decreases |a|
  {
    if |a| > 0 && a[0] == b[0] && b[0] == c[0] {
      BelowTransitive(a[1..], b[1..], c[1..]);
    }
  }
}

=== FILE: wrappers.dfy ===
/** Optional values: a file that may be missing, an audio load that may fail. */
module Wrappers {

  datatype Option<+T> = None | Some(value: T)

}
